=== FILE: README.md ===
# bear-tools core in Dafny

A model of the pure helpers of the `bear_tools` Python package:

- the table-driven finite state machine (`FSM`): the transition step, the
  epsilon closure with its self-loop guard, per-input handlers and the
  state-reader override;
- string formatting: hex dumps of byte buffers, column alignment,
  control-character removal, Markdown tables, checkmark emoji and ANSI colour
  wrapping;
- dictionary lookups: single keys, key paths through nested dictionaries,
  strict and lenient modes, and the lenient YAML `get_nested`;
- UTC-offset rendering (description and filename formats) and parsing of
  `±HHMM`;
- the enum convenience layers (`EnumMixin`, `EnhancedEnum`,
  `EnhancedIntEnum`): listings, lookup by value and ordering;
- the logger's level logic: the `LogLevel` order, the emit gate, the level
  setter's fallback to `INFO`, the per-level callback registry, colour choice
  and the banner.

Python exceptions become `Err` constructors of a `Result`. A `None` that
means "nothing found" becomes `Option.None`; a `None` that is a value of
dynamically typed data, such as the default of `lookup` and `nested_lookup`
or the result of `get_nested`, is the `Null` constructor of that data's
`Value` type. Each source file has its own module:

| file | module |
|---|---|
| wrappers.dfy | `Wrappers`: `Option`, `Result` |
| text.dfy | `Text`: repetition, padding, joining, column widths, decimal digits |
| fsm.dfy | `Fsm` |
| string_utils.dfy | `StringUtils` |
| markdown_utils.dfy | `MarkdownUtils` |
| dict_utils.dfy | `DictUtils` |
| yaml_utils.dfy | `YamlUtils` |
| time_utils.dfy | `TimeUtils` |
| enums.dfy | `Enums`: the listings and value lookup shared by the three enum classes |
| enum_mixin.dfy, enhanced_enum.dfy, enhanced_int_enum.dfy | `EnumMixin`, `EnhancedEnum`, `EnhancedIntEnum` |
| log_level.dfy, logger.dfy, color.dfy | `LogLevels`, `Logging`, `Colors` |

The FSM's epsilon-closure loop does not terminate when the epsilon entries
form a cycle of two or more states. `Fsm.Transition` bounds the loop by the
size of the table and reports `Diverges` when the bound is exceeded.
`Fsm.DivergesIffEndlessEpsilonChain` proves that `Diverges` happens exactly
when the Python loop would run for ever.

The repository's FSM test (`tests/bear_tools/fsm/test_fsm.py:61-66`) expects
`transition(INPUT_B)` to stop at `COMPLETED`. Under the code
(`src/bear_tools/fsm/fsm.py:55-63`), the closure follows the epsilon entry
from `COMPLETED` on to `FINISHED`. The model follows the code; see
`Fsm.EpsilonContinues`.

## Model

| member | source | states |
|---|---|---|
| Fsm.New | src/bear_tools/fsm/fsm.py:19-23 | A new machine reports its initial state and keeps the given table, with no handlers and no override. |
| Fsm.NewIsInitial | src/bear_tools/fsm/fsm.py:19-34 | A new machine reads its initial state; a first step on any input is invalid exactly when the table has no entry for the initial state and that input, fires no handler, and lands on the entry's target when that target has no epsilon entry. |
| Fsm.RegisterInputHandler | src/bear_tools/fsm/fsm.py:76 | The input's handler becomes the new one, other inputs keep theirs, and the state and table are untouched. |
| Fsm.LastHandlerWins | src/bear_tools/fsm/fsm.py:76 | Registering twice for one input equals registering only the second handler. |
| Fsm.RegisterGetStateCallback | src/bear_tools/fsm/fsm.py:86 | An installed override is what the state reader returns; clearing it brings back the internal state. |
| Fsm.Fired | src/bear_tools/fsm/fsm.py:51-52 | The handler trace holds the input's handler the given number of times, or nothing when no handler is registered. |
| Fsm.Close | src/bear_tools/fsm/fsm.py:55-63 | The closure loop ends in a state with no epsilon entry or on a self-loop, and keeps the table and handlers. Without an override, the end state is where the epsilon walk arrives after the hop count, less the final self-loop hop. With an override, the observed state stays put, there is one hop exactly when it has an epsilon entry, and that hop writes the entry's target into the hidden internal state. |
| Fsm.Transition | src/bear_tools/fsm/fsm.py:45-65 | The step is invalid exactly when (state, input) is missing. Otherwise it returns the new observed state, leaves the table and handlers unchanged, and fires the handler once for the step and once per epsilon hop. The hop count is the length of the epsilon walk from the step's target to the returned state, plus one for a final self-loop; with an override it is one exactly when the override state has an epsilon entry, and the hidden internal state ends at that entry's target, else at the step's target. |
| Fsm.StepWithoutEpsilon | src/bear_tools/fsm/fsm.py:49-50 | A step into a state without an epsilon entry ends there and fires the handler once. |
| Fsm.ClosureEndsAtRest | src/bear_tools/fsm/fsm.py:55-63 | After a successful step, the final state has no epsilon entry or its epsilon entry points to itself, and the epsilon walk from the step's target reaches it after the hop count, less a final self-loop hop. |
| Fsm.HopsDetermined | src/bear_tools/fsm/fsm.py:56-63 | An epsilon walk reaches a state with no moving epsilon entry after one hop count only, so the walk fixes the number of handler calls. |
| Fsm.SelfLoopStops | src/bear_tools/fsm/fsm.py:61-63 | Landing on a state whose epsilon entry is a self-loop makes one hop and stops there. |
| Fsm.OverrideHidesTransitions | src/bear_tools/fsm/fsm.py:45-63 | With an override, the step's key comes from the override and the returned state is the override's; once the override is cleared, the internal state read is the override state's epsilon target when it has one, else the step's target. |
| Fsm.DivergedIffLongWalk | src/bear_tools/fsm/fsm.py:56-63 | The bounded closure gives up exactly when the epsilon walk can take one hop more than the bound. |
| Fsm.DivergesIffEndlessEpsilonChain | src/bear_tools/fsm/fsm.py:56-63 | `Diverges` holds exactly when the epsilon walk from the step's target never stops, that is, when the source loop never exits. |
| Fsm.EpsilonContinues | src/bear_tools/fsm/fsm.py:55-63 | In the START/PROCESSING/COMPLETED/FINISHED machine, INPUT_B goes on through the epsilon entry to FINISHED. |
| Fsm.RunStopScenario | src/bear_tools/fsm/fsm.py:45-65 | A two-step machine moves along its entries, and a step with no entry is invalid. |
| StringUtils.ByteArrayToStr | src/bear_tools/string_utils.py:18-39 | `None` gives `None`, an empty list gives `<no data>`, and bytes give the simple or colon-separated hex dump. |
| StringUtils.HexSimple | src/bear_tools/string_utils.py:37-38 | The simple dump has two characters per byte, and pair i is byte i in two uppercase hex digits. |
| StringUtils.HexRoundTrip | src/bear_tools/string_utils.py:38 | Decoding the simple dump two digits at a time gives back the bytes. |
| StringUtils.HexSimpleInjective | src/bear_tools/string_utils.py:38 | Different byte sequences have different simple dumps. |
| StringUtils.HexColonShape | src/bear_tools/string_utils.py:39 | The colon dump is empty for no bytes and otherwise 3n-1 long; deleting its colons gives the simple dump. |
| StringUtils.GetAlignedText | src/bear_tools/string_utils.py:52-68 | Negative padding is an error, no rows give no rows, ragged rows (an `IndexError`) are an error exactly when the rows differ in length, and the output keeps the shape of the input. |
| StringUtils.ColumnWidths | src/bear_tools/string_utils.py:59 | Each column's width is its longest cell plus the padding. |
| StringUtils.AlignedColumns | src/bear_tools/string_utils.py:65-66 | With two or more rows, each cell keeps its text and is padded with blanks to its column's width plus the padding. |
| StringUtils.AlignedSingleRow | src/bear_tools/string_utils.py:63-64 | A single row keeps every cell's text and follows it with blanks up to one common width: the widest cell plus the padding. |
| StringUtils.RemoveControlChars | src/bear_tools/string_utils.py:82-84 | The result is no longer than the text and contains no character 0-31 or 127. |
| StringUtils.RemoveControlCharsCounts | src/bear_tools/string_utils.py:82-84 | Every non-control character keeps its number of occurrences, and control characters have none. |
| StringUtils.RemoveControlCharsFixes | src/bear_tools/string_utils.py:82-84 | The text comes back unchanged exactly when it has no control character. |
| StringUtils.RemoveControlCharsIdempotent | src/bear_tools/string_utils.py:82-84 | Removing control characters twice equals removing them once. |
| MarkdownUtils.Emoji | src/bear_tools/markdown_utils.py:13 | True gives the check mark U+2705 and false gives the cross U+274C. |
| MarkdownUtils.EmojiDistinguishes | src/bear_tools/markdown_utils.py:13 | The two values render differently. |
| MarkdownUtils.GetTable | src/bear_tools/markdown_utils.py:34-45 | No rows is a `ValueError`; otherwise the table is its lines joined with newlines. |
| MarkdownUtils.Widths | src/bear_tools/markdown_utils.py:37 | `zip` keeps as many columns as the shortest row has, and each width is the column's longest cell. |
| MarkdownUtils.CellsFillColumns | src/bear_tools/markdown_utils.py:37-39 | Every padded cell is exactly its column's width, and some row attains that width. |
| MarkdownUtils.RowLength | src/bear_tools/markdown_utils.py:38-39 | A data line with cells no wider than their columns is `sum(widths) + 3*cols + 1` long. |
| MarkdownUtils.SeparatorLength | src/bear_tools/markdown_utils.py:40 | The separator line is as long as a data line. |
| MarkdownUtils.TableLineOrder | src/bear_tools/markdown_utils.py:39-43 | The lines are the header row, the separator, then the other rows in order. |
| MarkdownUtils.TableLineWidths | src/bear_tools/markdown_utils.py:38-45 | All `len(data) + 1` lines have the same width. |
| MarkdownUtils.TableLength | src/bear_tools/markdown_utils.py:45 | The table's length is the lines' total plus one newline between each pair. |
| MarkdownUtils.RowIsAlignedRow | src/bear_tools/markdown_utils.py:38-39 | On rectangular data, a Markdown row is the aligned row at padding 0, with the cells separated and framed by pipe characters. |
| DictUtils.Lookup | src/bear_tools/dict_utils.py:45-57 | A non-dictionary source is a `TypeError`; a present key gives its value; a missing key is a `KeyError` when strict and the default otherwise. |
| DictUtils.SafeGet | src/bear_tools/dict_utils.py:162-167 | A non-dictionary source is an error; otherwise the key's value, or the default. |
| DictUtils.SafeGetIsLenientLookup | src/bear_tools/dict_utils.py:167 | `safe_get` equals `lookup` with `strict=False`. |
| DictUtils.Split | src/bear_tools/dict_utils.py:107 | `str.split` gives at least one piece, and no piece contains the separator. |
| DictUtils.JoinSplit | src/bear_tools/dict_utils.py:107 | Joining the pieces with the separator gives the string back. |
| DictUtils.SplitLeftmost | src/bear_tools/dict_utils.py:107 | Each piece but the last ends at the first occurrence of the separator in the rest of the string, so the split is leftmost. |
| DictUtils.PathKeys | src/bear_tools/dict_utils.py:106-109 | `""` has no keys, a key list is taken as is, a string is split (and joins back), and an empty separator is Python's `ValueError`. |
| DictUtils.Descend | src/bear_tools/dict_utils.py:114-135 | The loop returns the value at the end of the path when every step finds a dictionary with the key; otherwise it returns the default, or a `KeyError`/`TypeError` when strict. |
| DictUtils.NestedLookup | src/bear_tools/dict_utils.py:99-135 | A non-dictionary source is a `TypeError`, an empty path returns the source, and a bad separator is a `ValueError`. |
| DictUtils.DottedIsSplit | src/bear_tools/dict_utils.py:106-109 | A string path behaves like the list of its split pieces. |
| DictUtils.NestedLookupFound | src/bear_tools/dict_utils.py:114-135 | When the whole path exists, the result is the value at its end, whatever the mode. |
| DictUtils.NestedLookupNotFound | src/bear_tools/dict_utils.py:117-133 | When the path does not exist, strict mode raises a `KeyError` or `TypeError` and lenient mode returns the default. |
| DictUtils.MissingKeyError | src/bear_tools/dict_utils.py:125-132 | A key missing from a dictionary reached along p is a `KeyError` naming p plus that key. |
| DictUtils.NotADictError | src/bear_tools/dict_utils.py:117-122 | A non-dictionary reached along p, with keys left, is a `TypeError` naming p. |
| DictUtils.SingleKeyIsLookup | src/bear_tools/dict_utils.py:111-135 | A one-key path is a plain `lookup`. |
| YamlUtils.GetNested | src/bear_tools/yaml_utils.py:33-39 | No keys return the data; a path that exists returns the stored value. |
| YamlUtils.GetNestedMissing | src/bear_tools/yaml_utils.py:36-45 | A missing key or a non-mapping on the path gives `None`, never an exception. |
| YamlUtils.NullYieldsNull | src/bear_tools/yaml_utils.py:40-42 | Starting from `None`, any key path gives `None`. |
| YamlUtils.GetNestedIsLenientLookup | src/bear_tools/yaml_utils.py:33-45 | On a mapping, `get_nested` is the lenient `nested_lookup` with a `None` default. |
| TimeUtils.TwoDigits | src/bear_tools/time_utils.py:34 | `{n:02}` gives two decimal digits whose value is n. |
| TimeUtils.UtcClock | src/bear_tools/time_utils.py:32-34 | For a valid offset, the `(UTC±HH:MM)` field is 11 characters long. |
| TimeUtils.UtcClockFields | src/bear_tools/time_utils.py:32-34 | The sign is `+` exactly when the offset is at least 0, and HH and MM read back as `divmod(abs(m), 60)`. |
| TimeUtils.ZeroOffset | src/bear_tools/time_utils.py:33 | Offset 0 renders as `(UTC+00:00)`. |
| TimeUtils.TimestampDescription | src/bear_tools/time_utils.py:26-38 | Within [-720, 840] the description carries the clock field; otherwise it never fails and uses the `(UTC Offset minutes: m)` fallback. |
| TimeUtils.TimestampFilename | src/bear_tools/time_utils.py:52-66 | An offset outside [-720, 840] is a `ValueError`; otherwise the name ends in `_HHMM_DST-ON` or `_HHMM_DST-OFF`, with `neg` before HHMM for a negative offset. |
| TimeUtils.DstLabel | src/bear_tools/time_utils.py:27-38 | The description ends in `(DST: ON)` exactly when DST is active, for valid and invalid offsets alike. |
| TimeUtils.DstLabelFilename | src/bear_tools/time_utils.py:59-61 | The filename ends in `DST-ON` exactly when DST is active. |
| TimeUtils.ParseUtcOffset | src/bear_tools/time_utils.py:92-101 | No `[+-]DDDD` match gives `None`; otherwise the leftmost match gives sign·(hours·60 + minutes). |
| TimeUtils.OffsetRoundTrip | src/bear_tools/time_utils.py:92-101 | Parsing a valid offset written as sign, HH and MM (followed by anything) gives the offset back. |
| Enums.Names | src/bear_tools/enum_mixin.py:18 | One name per member, in definition order (also `names` at enhanced_enum.py:17-19 and enhanced_int_enum.py:19-21). |
| Enums.Values | src/bear_tools/enum_mixin.py:27 | One value per member, in definition order (also `values` in both enhanced classes). |
| Enums.ContainsValue | src/bear_tools/enum_mixin.py:36 | True exactly when the argument is a plain value equal to some member's value; a member argument is never contained (also enhanced_enum.py:34). |
| Enums.GetItem | src/bear_tools/enum_mixin.py:45-48 | A plain value finds a member with that value, with `None` exactly when no member has it; a member argument is returned exactly when it belongs to the class (also `get_member` at enhanced_enum.py:39-42). |
| Enums.GetName | src/bear_tools/enum_mixin.py:57-60 | The name of the looked-up member, or `None` exactly when lookup fails (also enhanced_enum.py:47-50). |
| Enums.ListingsAgree | src/bear_tools/enhanced_enum.py:17-29 | `names`, `members` and `values` have equal length, and entry i of each belongs to member i. |
| Enums.ContainsIffFound | src/bear_tools/enhanced_enum.py:34-50 | A plain value is contained exactly when lookup and name lookup succeed; a member is never contained, yet lookup finds it exactly when it belongs to the class. |
| Enums.LookupInvertsValue | src/bear_tools/enhanced_enum.py:39-42 | In a class with distinct values, looking up a member's value gives that member and its name, and so does looking up the member itself. |
| EnumMixin.Lt | src/bear_tools/enum_mixin.py:67-68 | `<` is false against another class or a non-enum, and compares values within a class. |
| EnumMixin.LtStrictOrder | src/bear_tools/enum_mixin.py:68 | Within a class, `<` is irreflexive, asymmetric, transitive and relates any two distinct members. |
| EnhancedEnum.Lt | src/bear_tools/enhanced_enum.py:53-63 | `<` defers with `NotImplemented` across classes and otherwise answers the value comparison. |
| EnhancedEnum.AgreesWithMixin | src/bear_tools/enhanced_enum.py:58-63 | Where it answers, it agrees with `EnumMixin.__lt__`; where it defers, the mixin says false. |
| EnhancedIntEnum.ContainsValue | src/bear_tools/enhanced_int_enum.py:38 | True exactly when the argument equals some member's integer value (a bool counts as 0 or 1). |
| EnhancedIntEnum.GetMember | src/bear_tools/enhanced_int_enum.py:43-46 | A found member has the argument's value; non-integers give `None`. |
| EnhancedIntEnum.GetName | src/bear_tools/enhanced_int_enum.py:51-54 | The name of the found member, `None` exactly when lookup fails. |
| EnhancedIntEnum.ContainsIffMember | src/bear_tools/enhanced_int_enum.py:38-54 | When `contains_value` holds, `get_member` and `get_name` succeed, and only then. |
| EnhancedIntEnum.TrueFindsOne | src/bear_tools/enhanced_int_enum.py:43-46 | `True` looks up the member whose value is 1. |
| LogLevels.Value | src/bear_tools/lumberjack/log_level.py:21-26 | Each level's value is its position in the definition order NOISE..SILENT. |
| LogLevels.FromValue | src/bear_tools/lumberjack/log_level.py:21-26 | Only 0..5 name a level, and the level found has that value. |
| LogLevels.ValueRoundTrip | src/bear_tools/lumberjack/log_level.py:21-26 | Value and lookup by value are inverse, and the values are 0..5 in definition order. |
| LogLevels.TotalOrder | src/bear_tools/lumberjack/log_level.py:28-41 | `<` is irreflexive and `<=` reflexive; `a < b` iff `b > a`; `a <= b` iff `b >= a`; the order is total, antisymmetric and transitive. |
| LogLevels.Extremes | src/bear_tools/lumberjack/log_level.py:21-26 | NOISE is the least level and SILENT the greatest. |
| Logging.NewLogger | src/bear_tools/lumberjack/logger.py:20-47 | A new logger has the given level (INFO by default) and no callbacks. |
| Logging.RegisterCallback | src/bear_tools/lumberjack/logger.py:171-176 | The config is appended to the level's list, which is created if absent; other levels are unchanged; the result is true. |
| Logging.UnregisterCallback | src/bear_tools/lumberjack/logger.py:187-192 | False with nothing changed when the level has no list; otherwise the level keeps only the configs for other callbacks, other levels are unchanged, and the result is true. |
| Logging.WithoutMembers | src/bear_tools/lumberjack/logger.py:191 | The filtered list holds exactly the configs whose callback differs. |
| Logging.RegisterThenUnregister | src/bear_tools/lumberjack/logger.py:171-192 | Registering a new callback and then unregistering it restores the level's list. |
| Logging.Selected | src/bear_tools/lumberjack/logger.py:263-265 | The loop over the dictionary's items only calls configs stored under the message's level. |
| Logging.SelectedIsLevelList | src/bear_tools/lumberjack/logger.py:263-265 | With distinct keys, the loop calls exactly the level's list, in registration order. |
| Logging.LogColor | src/bear_tools/lumberjack/logger.py:245 | The colour is the argument if truthy, else the logger's default if truthy, else COLOR_OFF. |
| Logging.Log | src/bear_tools/lumberjack/logger.py:213-265 | A message is emitted exactly when the logger's level is at most the message's level; an emission records the level and text, the colour chosen by the `color or default_color or COLOR_OFF` chain, and the callbacks registered under the message's level. |
| Logging.EmitGate | src/bear_tools/lumberjack/logger.py:213-265 | A SILENT logger emits nothing below SILENT, lower levels are suppressed, and an emitted message fires its own level's callbacks only. |
| Logging.SetLogLevel | src/bear_tools/lumberjack/logger.py:70-74 | A level is stored as is; anything else stores INFO after a YELLOW warning at WARNING level, gated by the old level, that fires the WARNING callbacks. |
| Logging.SetterFallback | src/bear_tools/lumberjack/logger.py:70-74 | An unrecognised value always lands on INFO; its warning is dropped by a SILENT logger and shown by an INFO one. |
| Logging.BannerHeader | src/bear_tools/lumberjack/logger.py:86-87 | An empty symbol divides by zero; otherwise the header is the symbol repeated `120 // len(symbol)` times, so its length is at most 120 and more than 120 minus the symbol's, starts with the symbol and repeats with its period. |
| Logging.Banner | src/bear_tools/lumberjack/logger.py:77-91 | An empty symbol fails; otherwise a banner is three emissions, header, text and header, each at INFO, in the chosen colour, firing the INFO callbacks, and all shown exactly when the logger's level admits INFO. |
| Logging.DefaultBannerWidth | src/bear_tools/lumberjack/logger.py:77-87 | The default `=` symbol gives a 120-character header. |
| Colors.Code | src/bear_tools/lumberjack/color.py:20-33 | Every colour value starts with ESC `[` and ends with `m`. |
| Colors.CodesDistinct | src/bear_tools/lumberjack/color.py:20-33 | The values are pairwise distinct: looking a value up gives its member back. |
| Colors.ColorStr | src/bear_tools/lumberjack/color.py:58-59 | The result is the code, then the message, then COLOR_OFF, and is `len(code) + len(message) + 4` long. |
| Colors.NamedIsRawCode | src/bear_tools/lumberjack/color.py:58 | A member colours like the raw string of its value. |
| Colors.UncolorRoundTrip | src/bear_tools/lumberjack/color.py:59 | Stripping the code and COLOR_OFF gives the message back. |

## Left out

- Fsm.RegisterGetStateCallback: the override is a fixed state, not a zero-argument callback that may return a different state on each call.
- Fsm.Transition: the Python loop runs for ever on an epsilon cycle of two or more states; the model returns `Diverges` instead, and `Fsm.DivergesIffEndlessEpsilonChain` proves the two agree.
- Fsm.Transition: the handler is an identity in a trace; what a handler does when called, including re-entering the machine, is not modelled.
- StringUtils.ByteArrayToStr: the `str` to UTF-8 branch and the typecast of arbitrary objects are not modelled, because they depend on Python's encoders and object protocols.
- DictUtils.Lookup: dictionary keys are strings; other hashable keys are not modelled.
- DictUtils.NestedLookup: the exceptions carry the key path, not Python's message text.
- MarkdownUtils.GetTable: cells are strings, so the `str(_item)` conversion is the identity; the non-list row check is left to the types.
- EnhancedEnum.Lt: values are integers, so the `TypeError` branch for values that cannot be compared is not modelled.
- EnhancedIntEnum.GetMember: an `IntEnum` member argument is given by its integer value, which it equals; in a class with distinct values the lookup finds the same member either way.
- Enums.WellFormed: aliases (two names for one value) are not members, as Python does not iterate them; `EnumMixin.__hash__` is not modelled.
- Logging.Log: the message text, timestamps, caller discovery through `inspect.stack`, and the writes to files, streams and global paths are I/O and are not modelled; an emission records the level, text, colour and the callbacks fired.
- Logging.Log: the string passed to callbacks (logger.py:266-271) is not modelled; its mix of implicit string concatenation and conditional expressions does not have a clear intended meaning.
- Logging: the `noise`, `debug`, `info`, `warning` and `error` wrappers are `Log` at a fixed level with the caller's colour (defaulting to CYAN, CYAN, none, YELLOW and RED), and are not modelled separately.
- Colors: `print_color` is a write to a stream and is not modelled.
- TimeUtils: `strftime` output is an opaque base string; `get_local_time`, `get_utc_offsets`, `get_logging_timestamp`, `get_filename_timestamp` and `is_datetime_naive` depend on the clock and time zone libraries; the `date +%z` subprocess call is replaced by its output text.
- YamlUtils: `load`, `save` and `get_string` are file and YAML dumper I/O, and the error logging in `get_nested` is a side effect.
- spreadsheet_utils.py, network_utils.py, os_utils.py, macos_utils.py, thread_utils.py and the publisher package are library wrappers, sockets, subprocesses and threads, and are not part of this model.
- transport_protocol.py is an unfinished sketch whose `parse` never returns what it builds, and is not part of this model.
- Default arguments (`extra_padding=2`, `simple_hex=False`, `separator='.'`, `strict=True`, `default=None`, the banner's `symbol='='` and colour) are not modelled; callers pass every argument explicitly.
- linting_utils.py, misc_utils.py, type_defs.py, callback_config.py and the package `__init__` files hold no logic beyond declarations.

=== FILE: color.dfy ===
/** ANSI colour codes and colour wrapping of messages. */
module Colors {
  import opened Wrappers

  /** The escape character, `\033`. */
  const Esc: char := 27 as char

  datatype PrintColor =
    | White | Red | Orange | Green | Yellow | Cyan | Blue | Purple | Brown | Black
    | ColorOff

  /** The escape sequence behind each member: high-intensity colours, two
      256-colour entries, and the reset code. */
  function Code(c: PrintColor): (code: string)
    ensures |code| >= 4 && code[..2] == [Esc, '['] && code[|code| - 1] == 'm'
  {
    [Esc, '['] + match c
      case White => "97m"
      case Red => "91m"
      case Orange => "38;5;208m"
      case Green => "92m"
      case Yellow => "93m"
      case Cyan => "96m"
      case Blue => "94m"
      case Purple => "95m"
      case Brown => "38;5;94m"
      case Black => "90m"
      case ColorOff => "0m"
  }

  /** `PrintColor(code)`: the member with that value, if any. */
  function FromCode(code: string): (r: Option<PrintColor>)
    ensures r.Some? ==> Code(r.value) == code
  {
    if code == Code(White) then Some(White)
    else if code == Code(Red) then Some(Red)
    else if code == Code(Orange) then Some(Orange)
    else if code == Code(Green) then Some(Green)
    else if code == Code(Yellow) then Some(Yellow)
    else if code == Code(Cyan) then Some(Cyan)
    else if code == Code(Blue) then Some(Blue)
    else if code == Code(Purple) then Some(Purple)
    else if code == Code(Brown) then Some(Brown)
    else if code == Code(Black) then Some(Black)
    else if code == Code(ColorOff) then Some(ColorOff)
    else None
  }

  /** A colour argument: a `PrintColor` member or a raw code string. */
  datatype ColorArg = Named(color: PrintColor) | Raw(code: string)

  /** The text a colour argument contributes. */
  function CodeOf(arg: ColorArg): string
  {
    match arg
    case Named(c) => Code(c)
    case Raw(s) => s
  }

  /** `get_color_str`: the code, the message, then the reset code. */
  function ColorStr(message: string, arg: ColorArg): (r: string)
    ensures |r| == |CodeOf(arg)| + |message| + 4
    ensures r[..|CodeOf(arg)|] == CodeOf(arg)
    ensures r[|CodeOf(arg)|..|r| - 4] == message
    ensures r[|r| - 4..] == Code(ColorOff)
  {
    CodeOf(arg) + message + Code(ColorOff)
  }

  /** Recovers the message from a wrapped string, given its colour. */
  function Uncolor(s: string, arg: ColorArg): Option<string>
  {
    var n := |CodeOf(arg)|;
    if |s| >= n + 4 && s[..n] == CodeOf(arg) && s[|s| - 4..] == Code(ColorOff)
    then Some(s[n..|s| - 4])
    else None
  }

  // ----- Properties -----

  /** Every member has its own code: `FromCode` inverts `Code`. */
  lemma CodesDistinct(a: PrintColor, b: PrintColor)
    ensures FromCode(Code(a)) == Some(a)
    ensures Code(a) == Code(b) ==> a == b
  {
    FromCodeInverts(a);
    FromCodeInverts(b);
  }

  lemma FromCodeInverts(c: PrintColor)
    ensures FromCode(Code(c)) == Some(c)
  {
    match c
    case White =>
    case Red =>
    case Orange =>
    case Green =>
    case Yellow =>
    case Cyan =>
    case Blue =>
    case Purple =>
    case Brown =>
    case Black =>
    case ColorOff =>
  }

  /** A member argument and the raw string of its code color alike. */
  lemma NamedIsRawCode(message: string, c: PrintColor)
    ensures ColorStr(message, Named(c)) == ColorStr(message, Raw(Code(c)))
  {
  }

  /** Wrapping loses nothing: the message comes back out. */
  lemma UncolorRoundTrip(message: string, arg: ColorArg)
    ensures Uncolor(ColorStr(message, arg), arg) == Some(message)
  {
  }
}

=== FILE: dict_utils.dfy ===
/** Dictionary lookups: one key, or a path of keys through nested
    dictionaries, with a strict mode that raises and a lenient mode that
    falls back to a default. */
module DictUtils {
  import opened Wrappers
  import opened Text

  /** A dynamically typed value: a dictionary with string keys, some other
      object, or Python's `None`. */
  datatype Value<A> = Dict(entries: map<string, Value<A>>) | Atom(atom: A) | Null

  /** The exceptions the lookups raise; each carries the key path its
      message names. */
  datatype LookupError =
    | KeyError(path: seq<string>)    // the path up to and including the missing key
    | TypeError(path: seq<string>)   // the path to the value that is not a dictionary
    | ValueError                     // `str.split` with an empty separator

  // ----- lookup / safe_get -----

  /** `lookup(key, source, strict, default)`. */
  function Lookup<A>(key: string, source: Value<A>, strict: bool, default: Value<A>): (r: Result<Value<A>, LookupError>)
    ensures !source.Dict? ==> r == Err(TypeError([]))
    ensures source.Dict? && key in source.entries ==> r == Ok(source.entries[key])
    ensures source.Dict? && key !in source.entries ==> r == (if strict then Err(KeyError([key])) else Ok(default))
  {
    if !source.Dict? then Err(TypeError([]))
    else if key in source.entries then Ok(source.entries[key])
    else if strict then Err(KeyError([key]))
    else Ok(default)
  }

  /** `safe_get(source, key, default)`: `dict.get` on a dictionary. */
  function SafeGet<A>(source: Value<A>, key: string, default: Value<A>): (r: Result<Value<A>, LookupError>)
    ensures r.Err? <==> !source.Dict?
    ensures source.Dict? ==> r.value == if key in source.entries then source.entries[key] else default
  {
    if !source.Dict? then Err(TypeError([]))
    else if key in source.entries then Ok(source.entries[key])
    else Ok(default)
  }

  /** `safe_get` is the lenient `lookup`. */
  lemma SafeGetIsLenientLookup<A>(source: Value<A>, key: string, default: Value<A>)
    ensures SafeGet(source, key, default) == Lookup(key, source, false, default)
  {
  }

  // ----- str.split -----

  /** `sep` occurs in `s` starting at index `i`. */
  predicate OccursAt(s: string, sep: string, i: nat)
  {
    i + |sep| <= |s| && s[i..i + |sep|] == sep
  }

  /** `s.find(sep)` as an option: the first index where `sep` occurs. */
  function IndexOf(s: string, sep: string): (r: Option<nat>)
    requires |sep| > 0
    ensures r.Some? ==> OccursAt(s, sep, r.value) && forall j :: 0 <= j < r.value ==> !OccursAt(s, sep, j)
    ensures r.None? ==> forall j :: 0 <= j ==> !OccursAt(s, sep, j)
    decreases |s|
  {
    if |s| < |sep| then None
    else if s[..|sep|] == sep then Some(0)
    else
      var rest := IndexOf(s[1..], sep);
      assert !OccursAt(s, sep, 0);
      assert forall j :: 1 <= j ==> (OccursAt(s, sep, j) <==> OccursAt(s[1..], sep, j - 1)) by {
        forall j | 1 <= j ensures OccursAt(s, sep, j) <==> OccursAt(s[1..], sep, j - 1) {
          if j + |sep| <= |s| {
            assert s[1..][j - 1..] == s[j..];
            assert s[j..j + |sep|] == s[1..][j - 1..j - 1 + |sep|];
          }
        }
      }
      match rest
      case None => None
      case Some(k) => Some(k + 1)
  }

  /** `s.split(sep)`: the pieces between the occurrences of `sep`, found
      left to right. */
  function Split(s: string, sep: string): (parts: seq<string>)
    requires |sep| > 0
    ensures |parts| > 0
    ensures forall i, j :: 0 <= i < |parts| && 0 <= j ==> !OccursAt(parts[i], sep, j)
    decreases |s|
  {
    match IndexOf(s, sep)
    case None => [s]
    case Some(i) =>
      var head := s[..i];
      assert forall j :: 0 <= j ==> !OccursAt(head, sep, j) by {
        forall j | 0 <= j ensures !OccursAt(head, sep, j) {
          if j + |sep| <= |head| {
            assert head[j..j + |sep|] == s[j..j + |sep|];
            assert !OccursAt(s, sep, j);
          }
        }
      }
      [head] + Split(s[i + |sep|..], sep)
  }

  /** Joining the pieces with the separator gives the string back. */
  lemma {:induction false} JoinSplit(s: string, sep: string)
    requires |sep| > 0
    ensures Join(Split(s, sep), sep) == s
    decreases |s|
  {
    match IndexOf(s, sep)
    case None =>
    case Some(i) =>
      var rest := s[i + |sep|..];
      JoinSplit(rest, sep);
      JoinCons(s[..i], Split(rest, sep), sep);
      assert s == s[..i] + s[i..i + |sep|] + rest;
  }

  /** Each piece but the last ends where the separator first occurs in the
      rest of the string from that piece on: the split is leftmost, which
      the absence of `sep` inside the pieces alone does not give: `"aaa"`
      split at `"aa"` is `["", "a"]`, though `["a", ""]` also joins back. */
  lemma {:induction false} SplitLeftmost(s: string, sep: string)
    requires |sep| > 0
    ensures var parts := Split(s, sep);
            forall k :: 0 <= k < |parts| - 1 ==> IndexOf(Join(parts[k..], sep), sep) == Some(|parts[k]|)
    decreases |s|
  {
    match IndexOf(s, sep)
    case None =>
    case Some(i) =>
      var rest := s[i + |sep|..];
      var parts := Split(s, sep);
      SplitLeftmost(rest, sep);
      JoinSplit(s, sep);
      assert parts[0..] == parts;
      forall k | 1 <= k < |parts| - 1
        ensures IndexOf(Join(parts[k..], sep), sep) == Some(|parts[k]|)
      {
        assert parts[k..] == Split(rest, sep)[k - 1..];
      }
  }

  // ----- nested_lookup -----

  /** A key path: a separator-delimited string, or a list of keys. */
  datatype KeyPath = Dotted(text: string) | Keys(keys: seq<string>)

  /** The keys of a path: `""` has none, any other string is split. */
  function PathKeys(path: KeyPath, separator: string): (r: Result<seq<string>, LookupError>)
    ensures r.Err? <==> path.Dotted? && path.text != "" && separator == ""
    ensures path.Keys? ==> r == Ok(path.keys)
    ensures path == Dotted("") ==> r == Ok([])
    ensures r.Ok? && path.Dotted? && path.text != "" ==> Join(r.value, separator) == path.text
  {
    match path
    case Keys(keys) => Ok(keys)
    case Dotted(text) =>
      if text == "" then Ok([])
      else if separator == "" then Err(ValueError)
      else JoinSplit(text, separator); Ok(Split(text, separator))
  }

  /** The value at the end of `keys`, when every step finds a dictionary
      holding the next key. */
  function At<A>(v: Value<A>, keys: seq<string>): Option<Value<A>>
  {
    if |keys| == 0 then Some(v)
    else if v.Dict? && keys[0] in v.entries then At(v.entries[keys[0]], keys[1..])
    else None
  }

  /** The loop of `nested_lookup`: `walked` are the keys consumed so far. */
  function Descend<A>(current: Value<A>, keys: seq<string>, walked: seq<string>, strict: bool, default: Value<A>): (r: Result<Value<A>, LookupError>)
    ensures At(current, keys).Some? ==> r == Ok(At(current, keys).value)
    ensures At(current, keys).None? && !strict ==> r == Ok(default)
    ensures At(current, keys).None? && strict ==> r.Err? && !r.error.ValueError?
  {
    if |keys| == 0 then Ok(current)
    else if !current.Dict? then (if strict then Err(TypeError(walked)) else Ok(default))
    else if keys[0] !in current.entries then (if strict then Err(KeyError(walked + [keys[0]])) else Ok(default))
    else Descend(current.entries[keys[0]], keys[1..], walked + [keys[0]], strict, default)
  }

  /** `nested_lookup(key_path, source, separator, strict, default)`. */
  function NestedLookup<A>(path: KeyPath, source: Value<A>, separator: string, strict: bool, default: Value<A>): (r: Result<Value<A>, LookupError>)
    ensures !source.Dict? ==> r == Err(TypeError([]))
    ensures source.Dict? && PathKeys(path, separator).Err? ==> r == Err(ValueError)
    ensures source.Dict? && PathKeys(path, separator) == Ok([]) ==> r == Ok(source)
  {
    if !source.Dict? then Err(TypeError([]))
    else
      match PathKeys(path, separator)
      case Err(e) => Err(e)
      case Ok(keys) => if |keys| == 0 then Ok(source) else Descend(source, keys, [], strict, default)
  }

  /** A string path looks up the keys `key_path.split(separator)`. */
  lemma DottedIsSplit<A>(text: string, source: Value<A>, separator: string, strict: bool, default: Value<A>)
    requires text != "" && separator != ""
    ensures NestedLookup(Dotted(text), source, separator, strict, default)
            == NestedLookup(Keys(Split(text, separator)), source, separator, strict, default)
  {
  }

  /** When every key of the path is there, the result is the value at its
      end, in either mode. */
  lemma NestedLookupFound<A>(keys: seq<string>, source: Value<A>, separator: string, strict: bool, default: Value<A>)
    requires source.Dict? && At(source, keys).Some?
    ensures NestedLookup(Keys(keys), source, separator, strict, default) == Ok(At(source, keys).value)
  {
  }

  /** Otherwise strict mode raises a `KeyError` or `TypeError` and lenient
      mode returns the default. */
  lemma NestedLookupNotFound<A>(keys: seq<string>, source: Value<A>, separator: string, strict: bool, default: Value<A>)
    requires source.Dict? && At(source, keys).None?
    ensures var r := NestedLookup(Keys(keys), source, separator, strict, default);
            && (strict ==> r.Err? && (r.error.KeyError? || r.error.TypeError?))
            && (!strict ==> r == Ok(default))
  {
  }

  /** Descending along `p` then `rest` is descending along `rest` from the
      value at the end of `p`. */
  lemma {:induction false} DescendAppend<A>(v: Value<A>, p: seq<string>, rest: seq<string>, walked: seq<string>, strict: bool, default: Value<A>)
    requires At(v, p).Some?
    ensures Descend(v, p + rest, walked, strict, default) == Descend(At(v, p).value, rest, walked + p, strict, default)
  {
    if |p| > 0 {
      assert (p + rest)[0] == p[0];
      assert (p + rest)[1..] == p[1..] + rest;
      assert walked + [p[0]] + p[1..] == walked + p;
      DescendAppend(v.entries[p[0]], p[1..], rest, walked + [p[0]], strict, default);
    } else {
      assert p + rest == rest;
      assert walked + p == walked;
    }
  }

  /** A key missing from a dictionary reached along `p` raises a `KeyError`
      naming `p` and the key (strict), or yields the default (lenient). */
  lemma MissingKeyError<A>(source: Value<A>, p: seq<string>, k: string, rest: seq<string>, separator: string, strict: bool, default: Value<A>)
    requires source.Dict?
    requires At(source, p).Some? && At(source, p).value.Dict? && k !in At(source, p).value.entries
    ensures NestedLookup(Keys(p + [k] + rest), source, separator, strict, default)
            == if strict then Err(KeyError(p + [k])) else Ok(default)
  {
    DescendAppend(source, p, [k] + rest, [], strict, default);
    assert p + [k] + rest == p + ([k] + rest);
    assert [] + p == p;
  }

  /** A value reached along `p` that is not a dictionary, with keys still to
      go, raises a `TypeError` naming `p` (strict), or yields the default
      (lenient). */
  lemma NotADictError<A>(source: Value<A>, p: seq<string>, k: string, rest: seq<string>, separator: string, strict: bool, default: Value<A>)
    requires source.Dict?
    requires At(source, p).Some? && !At(source, p).value.Dict?
    ensures NestedLookup(Keys(p + [k] + rest), source, separator, strict, default)
            == if strict then Err(TypeError(p)) else Ok(default)
  {
    DescendAppend(source, p, [k] + rest, [], strict, default);
    assert p + [k] + rest == p + ([k] + rest);
    assert [] + p == p;
  }

  /** A one-key path is a plain `lookup`. */
  lemma SingleKeyIsLookup<A>(k: string, source: Value<A>, separator: string, strict: bool, default: Value<A>)
    ensures NestedLookup(Keys([k]), source, separator, strict, default) == Lookup(k, source, strict, default)
  {
    if source.Dict? {
      assert [] + [k] == [k];
    }
  }
}

=== FILE: enhanced_enum.dfy ===
/** `EnhancedEnum.__lt__`: like the mixin's, but it defers with
    `NotImplemented` instead of answering false across classes. */
module EnhancedEnum {
  import opened Enums
  import EnumMixin

  datatype Comparison = Answer(less: bool) | NotImplemented

  /** `self < other`. */
  function Lt(a: Member<int>, other: EnumMixin.Operand): (r: Comparison)
    ensures r.NotImplemented? <==> !(other.EnumMember? && other.member.owner == a.owner)
    ensures r.Answer? ==> (r.less <==> a.value < other.member.value)
  {
    if other.EnumMember? && other.member.owner == a.owner then Answer(a.value < other.member.value)
    else NotImplemented
  }

  /** Where it answers, it agrees with the mixin's `<`; where it defers,
      the mixin says false. */
  lemma AgreesWithMixin(a: Member<int>, other: EnumMixin.Operand)
    ensures Lt(a, other).Answer? ==> Lt(a, other).less == EnumMixin.Lt(a, other)
    ensures Lt(a, other).NotImplemented? ==> !EnumMixin.Lt(a, other)
  {
  }
}

=== FILE: enhanced_int_enum.dfy ===
/** `EnhancedIntEnum`: the enum helpers over integer values, where a lookup
    argument may be any Python object. */
module EnhancedIntEnum {
  import opened Wrappers
  import opened Enums

  /** A lookup argument: an int, a bool (which Python compares and hashes
      as 0 or 1), or an object that equals no integer. */
  datatype Probe = IntProbe(n: int) | BoolProbe(b: bool) | OtherProbe

  /** The integer a probe equals, if any. */
  function AsInt(p: Probe): Option<int>
  {
    match p
    case IntProbe(n) => Some(n)
    case BoolProbe(b) => Some(if b then 1 else 0)
    case OtherProbe => None
  }

  /** `any(value == m.value for m in cls)`. */
  function ContainsValue(e: EnumClass<int>, p: Probe): (b: bool)
    ensures b <==> exists i :: 0 <= i < |e.members| && Some(e.members[i].value) == AsInt(p)
  {
    match AsInt(p)
    case None => false
    case Some(n) => Enums.ContainsValue(e, ValueArg(n))
  }

  /** `cls(value)`, with `None` for its `ValueError` or `TypeError`. */
  function GetMember(e: EnumClass<int>, p: Probe): (r: Option<Member<int>>)
    ensures r.Some? ==> r.value in e.members && Some(r.value.value) == AsInt(p)
  {
    match AsInt(p)
    case None => None
    case Some(n) => GetItem(e, ValueArg(n))
  }

  /** `cls(value).name`, with `None` on failure. */
  function GetName(e: EnumClass<int>, p: Probe): (r: Option<string>)
    ensures r.Some? <==> GetMember(e, p).Some?
    ensures r.Some? ==> r.value == GetMember(e, p).value.name
  {
    match GetMember(e, p)
    case None => None
    case Some(m) => Some(m.name)
  }

  /** A contained value always yields a member and a name, and only a
      contained value does. */
  lemma ContainsIffMember(e: EnumClass<int>, p: Probe)
    ensures ContainsValue(e, p) <==> GetMember(e, p).Some?
    ensures ContainsValue(e, p) <==> GetName(e, p).Some?
  {
  }

  /** `True` finds the member whose value is 1. */
  lemma TrueFindsOne(e: EnumClass<int>)
    ensures GetMember(e, BoolProbe(true)) == GetMember(e, IntProbe(1))
  {
  }
}

=== FILE: enum_mixin.dfy ===
/** `EnumMixin.__lt__`: members of one class are ordered by their integer
    values; anything else compares false. */
module EnumMixin {
  import opened Enums

  /** The right operand of `<`: a member of some enum class, or another
      object. */
  datatype Operand = EnumMember(member: Member<int>) | NotAnEnum

  /** `self < other`. */
  function Lt(a: Member<int>, other: Operand): (r: bool)
    ensures r ==> other.EnumMember? && other.member.owner == a.owner
    ensures other.EnumMember? && other.member.owner == a.owner ==> (r <==> a.value < other.member.value)
  {
    other.EnumMember? && other.member.owner == a.owner && a.value < other.member.value
  }

  /** Within a class `<` is a strict order: irreflexive, asymmetric,
      transitive, and it relates any two members of a well-formed class one
      way or the other. */
  lemma LtStrictOrder(e: EnumClass<int>, a: Member<int>, b: Member<int>, c: Member<int>)
    requires WellFormed(e) && a in e.members && b in e.members && c in e.members
    ensures !Lt(a, EnumMember(a))
    ensures Lt(a, EnumMember(b)) ==> !Lt(b, EnumMember(a))
    ensures Lt(a, EnumMember(b)) && Lt(b, EnumMember(c)) ==> Lt(a, EnumMember(c))
    ensures a != b ==> Lt(a, EnumMember(b)) || Lt(b, EnumMember(a))
  {
  }
}

=== FILE: enums.dfy ===
/** An enumeration as its members in definition order.  The helpers the
    enum mixins share — listings by name and value, and lookup by value —
    are defined here once. */
module Enums {
  import opened Wrappers

  /** A member: the class it belongs to, its name and its value. */
  datatype Member<V> = Member(owner: string, name: string, value: V)

  datatype EnumClass<V> = EnumClass(name: string, members: seq<Member<V>>)

  /** Members belong to the class and have distinct names and values
      (aliases are not iterated, so they are not members here). */
  predicate WellFormed<V(==)>(e: EnumClass<V>)
  {
    && (forall i :: 0 <= i < |e.members| ==> e.members[i].owner == e.name)
    && (forall i, j :: 0 <= i < j < |e.members| ==> e.members[i].name != e.members[j].name)
    && (forall i, j :: 0 <= i < j < |e.members| ==> e.members[i].value != e.members[j].value)
  }

  /** `[m.name for m in cls]`. */
  function Names<V>(e: EnumClass<V>): (names: seq<string>)
    ensures |names| == |e.members|
    ensures forall i :: 0 <= i < |names| ==> names[i] == e.members[i].name
  {
    seq(|e.members|, i requires 0 <= i < |e.members| => e.members[i].name)
  }

  /** `[m.value for m in cls]`. */
  function Values<V>(e: EnumClass<V>): (values: seq<V>)
    ensures |values| == |e.members|
    ensures forall i :: 0 <= i < |values| ==> values[i] == e.members[i].value
  {
    seq(|e.members|, i requires 0 <= i < |e.members| => e.members[i].value)
  }

  /** `list(cls)`. */
  function Members<V>(e: EnumClass<V>): seq<Member<V>>
  {
    e.members
  }

  /** The first member from `k` on whose value is `v`. */
  function FindFrom<V(==)>(ms: seq<Member<V>>, v: V, k: nat): (r: Option<nat>)
    ensures r.Some? ==> k <= r.value < |ms| && ms[r.value].value == v
                        && forall j :: k <= j < r.value ==> ms[j].value != v
    ensures r.None? ==> forall j :: k <= j < |ms| ==> ms[j].value != v
    decreases |ms| - k
  {
    if k >= |ms| then None
    else if ms[k].value == v then Some(k)
    else FindFrom(ms, v, k + 1)
  }

  /** The argument of a lookup: a plain value, or a member of some enum
      class.  `cls(member)` hands a member of `cls` straight back, while a
      plain `Enum` member equals no value, not even its own. */
  datatype Arg<V> = ValueArg(v: V) | MemberArg(m: Member<V>)

  /** `any(value == m.value for m in cls)`: a member argument is never equal
      to a value. */
  function ContainsValue<V(==)>(e: EnumClass<V>, a: Arg<V>): (b: bool)
    ensures b <==> a.ValueArg? && exists i :: 0 <= i < |e.members| && e.members[i].value == a.v
  {
    match a
    case ValueArg(v) => FindFrom(e.members, v, 0).Some?
    case MemberArg(_) => false
  }

  /** `cls(value)`, with `None` for the `ValueError` of an unknown value or
      a member of another class. */
  function GetItem<V(==)>(e: EnumClass<V>, a: Arg<V>): (r: Option<Member<V>>)
    ensures r.Some? ==> r.value in e.members
    ensures a.ValueArg? ==> (r.Some? ==> r.value.value == a.v)
                            && (r.None? <==> forall i :: 0 <= i < |e.members| ==> e.members[i].value != a.v)
    ensures a.MemberArg? ==> (r.Some? <==> a.m in e.members) && (r.Some? ==> r.value == a.m)
  {
    match a
    case ValueArg(v) =>
      (match FindFrom(e.members, v, 0)
       case Some(i) => Some(e.members[i])
       case None => None)
    case MemberArg(m) => if m in e.members then Some(m) else None
  }

  /** `cls(value).name`, with `None` where lookup fails. */
  function GetName<V(==)>(e: EnumClass<V>, a: Arg<V>): (r: Option<string>)
    ensures r.None? <==> GetItem(e, a).None?
    ensures r.Some? ==> r.value == GetItem(e, a).value.name
  {
    match GetItem(e, a)
    case Some(m) => Some(m.name)
    case None => None
  }

  // ----- Properties -----

  /** The three listings line up: the `i`-th name and value are those of the
      `i`-th member, in definition order. */
  lemma ListingsAgree<V>(e: EnumClass<V>)
    ensures |Names(e)| == |Members(e)| == |Values(e)|
    ensures forall i :: 0 <= i < |Members(e)| ==>
              Names(e)[i] == Members(e)[i].name && Values(e)[i] == Members(e)[i].value
  {
  }

  /** A value is contained exactly when lookup finds a member for it; a
      member argument is never contained, yet lookup finds it exactly when it
      belongs to the class. */
  lemma ContainsIffFound<V>(e: EnumClass<V>, a: Arg<V>)
    ensures a.ValueArg? ==> (ContainsValue(e, a) <==> GetItem(e, a).Some?)
    ensures a.ValueArg? ==> (ContainsValue(e, a) <==> GetName(e, a).Some?)
    ensures a.MemberArg? ==> !ContainsValue(e, a) && (GetItem(e, a).Some? <==> a.m in e.members)
  {
  }

  /** Looking up a member's value gives that member back, and its name. */
  lemma LookupInvertsValue<V>(e: EnumClass<V>, i: nat)
    requires WellFormed(e) && i < |e.members|
    ensures GetItem(e, ValueArg(e.members[i].value)) == Some(e.members[i])
    ensures GetName(e, ValueArg(e.members[i].value)) == Some(e.members[i].name)
    ensures GetItem(e, MemberArg(e.members[i])) == Some(e.members[i])
  {
  }
}

=== FILE: fsm.dfy ===
/** A table-driven finite state machine: a current state, an immutable
    transition table keyed by (state, input-or-epsilon), per-input handlers
    and an optional override of the state reader.

    Handlers are identified by values of `H`; a transition reports the
    handlers it fired, in order, instead of calling them.  The override of
    the state reader is a fixed state: while it is set every read of the
    current state yields it. */
module Fsm {
  import opened Wrappers

  /** `None` as the input component of a key is an epsilon transition. */
  type Table<S(==), I(==)> = map<(S, Option<I>), S>

  datatype Machine<S(==), I(==), H> = Machine(
    internal: S,              // the tracked current state
    table: Table<S, I>,       // never changed after construction
    handlers: map<I, H>,      // at most one handler per input
    override: Option<S>       // when set, the state every read reports
  )

  /** The state a reader observes: the override when one is set, otherwise
      the tracked state. */
  function State<S(==), I(==), H>(m: Machine<S, I, H>): S
  {
    match m.override
    case Some(s) => s
    case None => m.internal
  }

  /** A machine in `initial` over `table`, with no handlers and no override. */
  function New<S(==), I(==), H>(initial: S, table: Table<S, I>): (m: Machine<S, I, H>)
    ensures State(m) == initial
    ensures m.table == table && |m.handlers| == 0 && m.override.None?
  {
    Machine(initial, table, map[], None)
  }

  /** Associates `handler` with `action`, replacing any earlier handler. */
  function RegisterInputHandler<S(==), I(==), H>(m: Machine<S, I, H>, action: I, handler: H): (m': Machine<S, I, H>)
    ensures action in m'.handlers && m'.handlers[action] == handler
    ensures m'.handlers.Keys == m.handlers.Keys + {action}
    ensures forall a | a in m.handlers && a != action :: m'.handlers[a] == m.handlers[a]
    ensures m'.table == m.table && m'.internal == m.internal && m'.override == m.override
  {
    m.(handlers := m.handlers[action := handler])
  }

  /** Installs (`Some`) or clears (`None`) the override of the state reader. */
  function RegisterGetStateCallback<S(==), I(==), H>(m: Machine<S, I, H>, callback: Option<S>): (m': Machine<S, I, H>)
    ensures callback.Some? ==> State(m') == callback.value
    ensures callback.None? ==> State(m') == m.internal
    ensures m'.table == m.table && m'.internal == m.internal && m'.handlers == m.handlers
  {
    m.(override := callback)
  }

  /** The handler fired for `action`, if one is registered (epsilon never
      has one: handlers are keyed by real inputs). */
  function HandlerFor<S(==), I(==), H>(m: Machine<S, I, H>, action: Option<I>): Option<H>
  {
    if action.Some? && action.value in m.handlers then Some(m.handlers[action.value]) else None
  }

  /** The trace of `n` firings of the handler for `action`. */
  function Fired<S(==), I(==), H>(m: Machine<S, I, H>, action: Option<I>, n: nat): (trace: seq<H>)
    ensures HandlerFor(m, action).None? ==> trace == []
    ensures HandlerFor(m, action).Some? ==> |trace| == n
    ensures forall k :: 0 <= k < |trace| ==> Some(trace[k]) == HandlerFor(m, action)
  {
    match HandlerFor(m, action)
    case None => []
    case Some(h) => seq(n, _ => h)
  }

  /** An epsilon hop from `s` that leaves `s` (not a self-loop). */
  predicate Moves<S(==), I(==)>(t: Table<S, I>, s: S)
  {
    (s, None) in t && t[(s, None)] != s
  }

  /** The state reached after `k` epsilon hops from `s`, if each of them
      moves; `None` once a state without a moving epsilon hop comes first. */
  function Walk<S(==), I(==)>(t: Table<S, I>, s: S, k: nat): Option<S>
    decreases k
  {
    if k == 0 then Some(s)
    else if Moves(t, s) then Walk(t, t[(s, None)], k - 1)
    else None
  }

  datatype Closure<S(==), I(==), H> =
    | Settled(machine: Machine<S, I, H>, hops: nat)
    | Diverged

  /** The epsilon-closure loop: while the observed state has an epsilon
      entry, move the tracked state to its target; stop after a hop that
      leaves the observed state unchanged.  `fuel` bounds the number of hops
      that change it; `Diverged` means the bound was exceeded. */
  function Close<S(==), I(==), H>(m: Machine<S, I, H>, fuel: nat): (r: Closure<S, I, H>)
    ensures r.Settled? ==> r.machine.table == m.table && r.machine.handlers == m.handlers
                           && r.machine.override == m.override
    // the loop exits only when the observed state has no epsilon entry or
    // the last hop left it where it was
    ensures r.Settled? ==> (State(r.machine), None) !in m.table
                           || (r.hops > 0 && (m.override.Some? || m.table[(State(r.machine), None)] == State(r.machine)))
    // every hop but a final self-loop moves along the epsilon walk
    ensures r.Settled? && m.override.None? ==>
              Walk(m.table, State(m), if (State(r.machine), None) in m.table then r.hops - 1 else r.hops)
                == Some(State(r.machine))
    // with an override the first hop leaves the observed state where it was
    ensures r.Settled? && m.override.Some? ==>
              State(r.machine) == State(m) && r.hops == (if (State(m), None) in m.table then 1 else 0)
    // and the hidden field keeps the one epsilon target it was given
    ensures r.Settled? && m.override.Some? ==>
              r.machine.internal == (if (State(m), None) in m.table then m.table[(State(m), None)] else m.internal)
    ensures r.Diverged? ==> m.override.None?
    decreases fuel
  {
    var cur := State(m);
    if (cur, None) !in m.table then Settled(m, 0)
    else
      var m' := m.(internal := m.table[(cur, None)]);
      if State(m') == cur then Settled(m', 1)
      else if fuel == 0 then Diverged
      else
        match Close(m', fuel - 1)
        case Settled(f, k) => Settled(f, k + 1)
        case Diverged => Diverged
  }

  datatype Outcome<S(==), I(==), H> =
    | Invalid(state: S, action: Option<I>)    // ValueError: no entry for (state, action)
    | Moved(machine: Machine<S, I, H>, next: S, fired: seq<H>, hops: nat)
    | Diverges                               // the epsilon loop never exits

  /** `transition(action)`: look up (state, action); when absent, fail before
      any write; otherwise move to the target, fire the action's handler,
      then follow epsilon entries, firing the same handler on every hop. */
  function Transition<S(==), I(==), H>(m: Machine<S, I, H>, action: Option<I>): (r: Outcome<S, I, H>)
    ensures r.Invalid? <==> (State(m), action) !in m.table
    ensures r.Invalid? ==> r.state == State(m) && r.action == action
    ensures r.Moved? ==> r.next == State(r.machine)
    ensures r.Moved? ==> r.machine.table == m.table && r.machine.handlers == m.handlers
                         && r.machine.override == m.override
    ensures r.Moved? ==> r.fired == Fired(m, action, 1 + r.hops)
    ensures r.Moved? ==> (r.next, None) !in m.table || (r.hops > 0 && (m.override.Some? || m.table[(r.next, None)] == r.next))
    ensures r.Moved? && m.override.None? ==>
              Walk(m.table, m.table[(State(m), action)], if (r.next, None) in m.table then r.hops - 1 else r.hops)
                == Some(r.next)
    ensures r.Moved? && m.override.Some? ==>
              r.next == State(m) && r.hops == (if (State(m), None) in m.table then 1 else 0)
    // under an override the hidden field ends at the override's epsilon
    // target, or at the step's target when there is none
    ensures r.Moved? && m.override.Some? ==>
              r.machine.internal == (if (State(m), None) in m.table then m.table[(State(m), None)]
                                     else m.table[(State(m), action)])
    ensures r.Diverges? ==> m.override.None?
  {
    var s := State(m);
    if (s, action) !in m.table then Invalid(s, action)
    else
      var m1 := m.(internal := m.table[(s, action)]);
      match Close(m1, |m.table|)
      case Diverged => Diverges
      case Settled(f, hops) => Moved(f, State(f), Fired(m, action, 1 + hops), hops)
  }

  // ----- Properties -----

  /** A fresh machine reports its initial state; a first step on any input
      is invalid exactly when the table has no entry for the initial state
      and that input, and with no handlers registered it fires nothing. */
  lemma NewIsInitial<S, I, H>(initial: S, table: Table<S, I>, action: Option<I>)
    ensures State(New<S, I, H>(initial, table)) == initial
    ensures Transition(New<S, I, H>(initial, table), action).Invalid? <==> (initial, action) !in table
    ensures (initial, action) !in table ==> Transition(New<S, I, H>(initial, table), action) == Invalid(initial, action)
    ensures Transition(New<S, I, H>(initial, table), action).Moved? ==> Transition(New<S, I, H>(initial, table), action).fired == []
    ensures (initial, action) in table && (table[(initial, action)], None) !in table ==>
              Transition(New<S, I, H>(initial, table), action)
                == Moved(Machine(table[(initial, action)], table, map[], None), table[(initial, action)], [], 0)
  {
  }

  /** A step into a state without an epsilon entry ends there, firing the
      handler (if any) exactly once. */
  lemma {:induction false} StepWithoutEpsilon<S, I, H>(m: Machine<S, I, H>, action: Option<I>)
    requires m.override.None?
    requires (m.internal, action) in m.table
    requires (m.table[(m.internal, action)], None) !in m.table
    ensures var r := Transition(m, action);
            && r.Moved? && r.next == m.table[(m.internal, action)] && State(r.machine) == r.next
            && r.hops == 0
            && r.fired == (if HandlerFor(m, action).Some? then [HandlerFor(m, action).value] else [])
  {
  }

  /** Without an override, closure ends in a state with no epsilon entry or
      on an epsilon self-loop, reached from the primary target by epsilon
      hops. */
  lemma {:induction false} ClosureEndsAtRest<S, I, H>(m: Machine<S, I, H>, action: Option<I>)
    requires m.override.None?
    requires Transition(m, action).Moved?
    ensures var r := Transition(m, action);
            var t := m.table[(m.internal, action)];
            && ((r.next, None) !in m.table || (r.hops > 0 && m.table[(r.next, None)] == r.next))
            && Walk(m.table, t, if (r.next, None) in m.table then r.hops - 1 else r.hops) == Some(r.next)
  {
  }

  /** The walk above fixes the hop count, and with it the number of
      firings: a walk reaches a state where no moving hop leaves after one
      number of hops only. */
  lemma {:induction false} HopsDetermined<S, I>(t: Table<S, I>, s: S, x: S, j: nat, k: nat)
    requires !Moves(t, x)
    requires Walk(t, s, j) == Some(x) && Walk(t, s, k) == Some(x)
    ensures j == k
  {
    if j < k {
      WalkAdd(t, s, j, k - j);
    } else if k < j {
      WalkAdd(t, s, k, j - k);
    }
  }

  /** Self-loop guard: landing on a state whose epsilon entry points back at
      itself stops there after one hop. */
  lemma SelfLoopStops<S, I, H>(m: Machine<S, I, H>, action: Option<I>)
    requires m.override.None?
    requires (m.internal, action) in m.table
    requires var t := m.table[(m.internal, action)]; (t, None) in m.table && m.table[(t, None)] == t
    ensures var r := Transition(m, action);
            r.Moved? && r.next == m.table[(m.internal, action)] && r.hops == 1
            && |r.fired| == (if HandlerFor(m, action).Some? then 2 else 0)
  {
  }

  /** With the override set, the step reads its key from the override and
      the reported state stays the override's. */
  lemma OverrideHidesTransitions<S, I, H>(m: Machine<S, I, H>, x: S, action: Option<I>)
    requires m.override == Some(x)
    requires (x, action) in m.table
    ensures Transition(m, action).Moved?
    ensures Transition(m, action).next == x
    ensures RegisterGetStateCallback(Transition(m, action).machine, None).internal
              == (if (x, None) in m.table then m.table[(x, None)] else m.table[(x, action)])
  {
  }

  /** Registering twice for one input keeps only the later handler. */
  lemma LastHandlerWins<S, I, H>(m: Machine<S, I, H>, a: I, h1: H, h2: H)
    ensures RegisterInputHandler(RegisterInputHandler(m, a, h1), a, h2) == RegisterInputHandler(m, a, h2)
    ensures HandlerFor(RegisterInputHandler(RegisterInputHandler(m, a, h1), a, h2), Some(a)) == Some(h2)
  {
  }

  // ----- Termination of the epsilon loop -----

  /** Walks compose: `a + b` hops are `a` hops and then `b` more. */
  lemma {:induction false} WalkAdd<S, I>(t: Table<S, I>, s: S, a: nat, b: nat)
    ensures Walk(t, s, a + b) == (match Walk(t, s, a) case Some(x) => Walk(t, x, b) case None => None)
    decreases a
  {
    if a > 0 && Moves(t, s) {
      WalkAdd(t, t[(s, None)], a - 1, b);
    }
  }

  /** A walk that gets `k` hops far got every shorter distance too. */
  lemma WalkPrefix<S, I>(t: Table<S, I>, s: S, j: nat, k: nat)
    requires j <= k && Walk(t, s, k).Some?
    ensures Walk(t, s, j).Some?
  {
    WalkAdd(t, s, j, k - j);
  }

  /** `fuel` is exceeded exactly when the first `fuel + 1` epsilon hops all
      move. */
  lemma {:induction false} DivergedIffLongWalk<S, I, H>(m: Machine<S, I, H>, fuel: nat)
    requires m.override.None?
    ensures Close(m, fuel).Diverged? <==> Walk(m.table, m.internal, fuel + 1).Some?
    decreases fuel
  {
    var cur := m.internal;
    if Moves(m.table, cur) && fuel > 0 {
      DivergedIffLongWalk(m.(internal := m.table[(cur, None)]), fuel - 1);
    }
  }

  /** Among more values than a set holds, all drawn from the set, two are
      equal. */
  lemma {:induction false} Pigeonhole<K>(ks: seq<K>, bound: set<K>)
    requires forall i :: 0 <= i < |ks| ==> ks[i] in bound
    requires |ks| > |bound|
    ensures exists i, j :: 0 <= i < j < |ks| && ks[i] == ks[j]
  {
    if ks[0] in ks[1..] {
      var j :| 1 <= j < |ks| && ks[j] == ks[0];
      assert ks[0] == ks[j];
    } else {
      var rest := ks[1..];
      assert forall i :: 0 <= i < |rest| ==> rest[i] == ks[i + 1];
      Pigeonhole(rest, bound - {ks[0]});
      var i, j :| 0 <= i < j < |rest| && rest[i] == rest[j];
      assert ks[i + 1] == ks[j + 1];
    }
  }

  /** A walk that returns to its start after `p >= 1` moving hops goes on
      for ever. */
  lemma {:induction false} CycleWalksForever<S, I>(t: Table<S, I>, x: S, p: nat, k: nat)
    requires p > 0 && Walk(t, x, p) == Some(x)
    ensures Walk(t, x, k).Some?
    decreases k
  {
    if k < p {
      WalkPrefix(t, x, k, p);
    } else {
      WalkAdd(t, x, p, k - p);
      CycleWalksForever(t, x, p, k - p);
    }
  }

  /** A walk of more hops than the table has entries revisits a state, so
      it never ends. */
  lemma {:induction false} LongWalkIsEndless<S, I>(t: Table<S, I>, s: S, k: nat)
    requires Walk(t, s, |t| + 1).Some?
    ensures Walk(t, s, k).Some?
  {
    var n := |t| + 1;
    forall i | 0 <= i < n ensures Walk(t, s, i).Some? && (Walk(t, s, i).value, None) in t {
      WalkAdd(t, s, i, n - i);
    }
    var ks := seq(n, i requires 0 <= i < n && Walk(t, s, i).Some? => (Walk(t, s, i).value, None));
    assert forall i :: 0 <= i < |ks| ==> ks[i] in t.Keys;
    Pigeonhole(ks, t.Keys);
    var i, j :| 0 <= i < j < |ks| && ks[i] == ks[j];
    var x := Walk(t, s, i).value;
    WalkAdd(t, s, i, j - i);
    assert Walk(t, x, j - i) == Some(x);
    if k <= i {
      WalkPrefix(t, s, k, i);
    } else {
      WalkAdd(t, s, i, k - i);
      CycleWalksForever(t, x, j - i, k - i);
    }
  }

  /** The model's `Diverges` is exactly the source loop running for ever:
      without an override, every number of epsilon hops from the primary
      target keeps moving. */
  lemma DivergesIffEndlessEpsilonChain<S, I, H>(m: Machine<S, I, H>, action: Option<I>)
    requires m.override.None?
    requires (m.internal, action) in m.table
    ensures var t := m.table[(m.internal, action)];
            Transition(m, action).Diverges? <==> forall k: nat :: Walk(m.table, t, k).Some?
  {
    var t := m.table[(m.internal, action)];
    var m1 := m.(internal := t);
    DivergedIffLongWalk(m1, |m.table|);
    if Walk(m.table, t, |m.table| + 1).Some? {
      forall k: nat ensures Walk(m.table, t, k).Some? {
        LongWalkIsEndless(m.table, t, k);
      }
    }
  }

  // ----- Scenarios -----

  datatype Phase = Start | Processing | Completed | Finished
  datatype Signal = InputA | InputB

  /** A step into a state with an epsilon entry continues along it: from
      Processing, InputB reaches Completed and then moves on to Finished. */
  lemma EpsilonContinues()
    ensures var t := map[(Start, Some(InputA)) := Processing,
                         (Processing, Some(InputB)) := Completed,
                         (Completed, None) := Finished];
            var m0 := New<Phase, Signal, nat>(Start, t);
            var r1 := Transition(m0, Some(InputA));
            && r1.Moved? && r1.next == Processing
            && var r2 := Transition(r1.machine, Some(InputB));
            && r2.Moved? && r2.next == Finished && r2.hops == 1
  {
    var t := map[(Start, Some(InputA)) := Processing,
                 (Processing, Some(InputB)) := Completed,
                 (Completed, None) := Finished];
    assert (Completed, None) in t.Keys;
    assert |t| > 0;
    var m0 := New<Phase, Signal, nat>(Start, t);
    var m1 := m0.(internal := Processing);
    assert Close(m1, |t|) == Settled(m1, 0);
    var m2 := m0.(internal := Completed);
    var m3 := m0.(internal := Finished);
    assert Close(m3, |t| - 1) == Settled(m3, 0);
    assert Close(m2, |t|) == Settled(m3, 1);
  }

  /** START -GO-> RUNNING -STOP-> DONE; GO from DONE is invalid. */
  lemma RunStopScenario()
    ensures var t := map[(Start, Some(InputA)) := Processing, (Processing, Some(InputB)) := Finished];
            var m0 := New<Phase, Signal, nat>(Start, t);
            var r1 := Transition(m0, Some(InputA));
            && r1.Moved? && r1.next == Processing
            && var r2 := Transition(r1.machine, Some(InputB));
            && r2.Moved? && r2.next == Finished
            && Transition(r2.machine, Some(InputA)) == Invalid(Finished, Some(InputA))
  {
    var t := map[(Start, Some(InputA)) := Processing, (Processing, Some(InputB)) := Finished];
    var m0 := New<Phase, Signal, nat>(Start, t);
    var m1 := m0.(internal := Processing);
    assert Close(m1, |t|) == Settled(m1, 0);
    var m2 := m0.(internal := Finished);
    assert Close(m2, |t|) == Settled(m2, 0);
    assert (Finished, Some(InputA)) !in t;
  }
}

=== FILE: log_level.dfy ===
/** The logging levels and their ordering. */
module LogLevels {
  import opened Wrappers

  datatype LogLevel = Noise | Debug | Info | Warning | Error | Silent

  /** The levels in definition order. */
  const AllLevels: seq<LogLevel> := [Noise, Debug, Info, Warning, Error, Silent]

  /** The enum value of a level. */
  function Value(l: LogLevel): (v: nat)
    ensures v < |AllLevels| && AllLevels[v] == l
  {
    match l
    case Noise => 0
    case Debug => 1
    case Info => 2
    case Warning => 3
    case Error => 4
    case Silent => 5
  }

  /** The member's name, as `LogLevel(v).name` gives it. */
  function Name(l: LogLevel): string
  {
    match l
    case Noise => "NOISE"
    case Debug => "DEBUG"
    case Info => "INFO"
    case Warning => "WARNING"
    case Error => "ERROR"
    case Silent => "SILENT"
  }

  /** `LogLevel(v)`, with `None` for the `ValueError` of an unknown value. */
  function FromValue(v: int): (r: Option<LogLevel>)
    ensures r.Some? <==> 0 <= v < |AllLevels|
    ensures r.Some? ==> Value(r.value) == v
  {
    if 0 <= v < |AllLevels| then Some(AllLevels[v]) else None
  }

  predicate Lt(a: LogLevel, b: LogLevel) { Value(a) < Value(b) }
  predicate Le(a: LogLevel, b: LogLevel) { Value(a) <= Value(b) }
  predicate Gt(a: LogLevel, b: LogLevel) { Value(a) > Value(b) }
  predicate Ge(a: LogLevel, b: LogLevel) { Value(a) >= Value(b) }

  // ----- Properties -----

  /** The values are 0 to 5 in definition order, and each value names one
      level: `Value` and `FromValue` are inverse. */
  lemma ValueRoundTrip(l: LogLevel, v: int)
    ensures FromValue(Value(l)) == Some(l)
    ensures FromValue(v).Some? ==> Value(FromValue(v).value) == v && FromValue(v) == Some(AllLevels[v])
    ensures forall i :: 0 <= i < |AllLevels| ==> Value(AllLevels[i]) == i
  {
  }

  /** The four comparisons are one strict total order seen four ways. */
  lemma TotalOrder(a: LogLevel, b: LogLevel, c: LogLevel)
    ensures !Lt(a, a) && Le(a, a) && !Gt(a, a) && Ge(a, a)
    ensures Lt(a, b) <==> Gt(b, a)
    ensures Le(a, b) <==> Ge(b, a)
    ensures Le(a, b) <==> Lt(a, b) || a == b
    ensures Lt(a, b) || a == b || Lt(b, a)
    ensures Le(a, b) && Le(b, a) ==> a == b
    ensures Lt(a, b) && Lt(b, c) ==> Lt(a, c)
  {
  }

  /** `Silent` is the greatest level and `Noise` the least. */
  lemma Extremes(l: LogLevel)
    ensures Le(Noise, l) && Le(l, Silent)
    ensures Le(Silent, l) <==> l == Silent
  {
  }
}

=== FILE: logger.dfy ===
/** The pure part of the logger: the level gate, the level setter, the
    per-level callback registry, callback selection, colour choice and the
    banner.  Writes to files and streams, timestamps and caller discovery
    are outside the model; an emission records what a call would log. */
module Logging {
  import opened Wrappers
  import opened Text
  import opened LogLevels
  import opened Colors

  /** A registered callback: its identity and its two formatting flags. */
  datatype CallbackConfig = CallbackConfig(callback: nat, addTimestamps: bool, addCaller: bool)

  /** The callback dictionary as its items in insertion order, as a Python
      dict iterates them. */
  type Registry = seq<(LogLevel, seq<CallbackConfig>)>

  predicate DistinctKeys(reg: Registry)
  {
    forall i, j :: 0 <= i < j < |reg| ==> reg[i].0 != reg[j].0
  }

  /** Where `level`'s entry sits, if it has one. */
  function KeyIndex(reg: Registry, level: LogLevel): (r: Option<nat>)
    ensures r.Some? ==> r.value < |reg| && reg[r.value].0 == level
    ensures r.None? <==> forall i :: 0 <= i < |reg| ==> reg[i].0 != level
  {
    if |reg| == 0 then None
    else if reg[|reg| - 1].0 == level then Some(|reg| - 1)
    else KeyIndex(reg[..|reg| - 1], level)
  }

  /** `callbacks.get(level)`. */
  function Get(reg: Registry, level: LogLevel): Option<seq<CallbackConfig>>
  {
    match KeyIndex(reg, level)
    case Some(i) => Some(reg[i].1)
    case None => None
  }

  datatype Logger = Logger(level: LogLevel, callbacks: Registry, defaultColor: Option<string>)

  /** A logger as constructed: `INFO` unless told otherwise, no callbacks. */
  function NewLogger(level: Option<LogLevel>, defaultColor: Option<string>): (lg: Logger)
    ensures lg.level == level.GetOr(Info)
    ensures forall l :: Get(lg.callbacks, l).None?
    ensures DistinctKeys(lg.callbacks)
  {
    Logger(level.GetOr(Info), [], defaultColor)
  }

  // ----- Callback registry -----

  /** `register_callback`: append to the level's list, creating it if
      absent; always reports success. */
  function RegisterCallback(lg: Logger, level: LogLevel, config: CallbackConfig): (r: (Logger, bool))
    requires DistinctKeys(lg.callbacks)
    ensures r.1
    ensures DistinctKeys(r.0.callbacks)
    ensures Get(r.0.callbacks, level) == Some(Get(lg.callbacks, level).GetOr([]) + [config])
    ensures forall l :: l != level ==> Get(r.0.callbacks, l) == Get(lg.callbacks, l)
    ensures r.0.level == lg.level && r.0.defaultColor == lg.defaultColor
  {
    var reg := lg.callbacks;
    match KeyIndex(reg, level)
    case None =>
      var reg' := reg + [(level, [config])];
      assert [] + [config] == [config];
      assert forall l :: l != level ==> KeyIndex(reg', l) == KeyIndex(reg, l) by {
        forall l | l != level ensures KeyIndex(reg', l) == KeyIndex(reg, l) {
          assert reg'[..|reg'| - 1] == reg;
        }
      }
      (lg.(callbacks := reg'), true)
    case Some(i) =>
      var reg' := reg[i := (level, reg[i].1 + [config])];
      UpdateKeepsLookups(reg, i, reg'[i].1);
      (lg.(callbacks := reg'), true)
  }

  /** `unregister_callback`: false if the level has no list; otherwise keep
      only the configs for other callbacks, in order, and report true. */
  function UnregisterCallback(lg: Logger, level: LogLevel, callback: nat): (r: (Logger, bool))
    requires DistinctKeys(lg.callbacks)
    ensures r.1 <==> Get(lg.callbacks, level).Some?
    ensures !r.1 ==> r.0 == lg
    ensures DistinctKeys(r.0.callbacks)
    ensures r.1 ==> Get(r.0.callbacks, level) == Some(Without(Get(lg.callbacks, level).value, callback))
    ensures forall l :: l != level ==> Get(r.0.callbacks, l) == Get(lg.callbacks, l)
    ensures r.0.level == lg.level && r.0.defaultColor == lg.defaultColor
  {
    match KeyIndex(lg.callbacks, level)
    case None => (lg, false)
    case Some(i) =>
      var reg' := lg.callbacks[i := (level, Without(lg.callbacks[i].1, callback))];
      UpdateKeepsLookups(lg.callbacks, i, reg'[i].1);
      (lg.(callbacks := reg'), true)
  }

  /** `[c for c in configs if c.callback != callback]`. */
  function Without(configs: seq<CallbackConfig>, callback: nat): (r: seq<CallbackConfig>)
    ensures |r| <= |configs|
  {
    if |configs| == 0 then []
    else
      var rest := Without(configs[1..], callback);
      if configs[0].callback != callback then [configs[0]] + rest else rest
  }

  /** The filtered list holds exactly the configs for other callbacks. */
  lemma {:induction false} WithoutMembers(configs: seq<CallbackConfig>, callback: nat)
    ensures forall c :: c in Without(configs, callback) <==> c in configs && c.callback != callback
  {
    if |configs| > 0 {
      WithoutMembers(configs[1..], callback);
      assert forall c :: c in configs <==> c == configs[0] || c in configs[1..];
    }
  }

  /** Replacing the list at an existing entry keeps every lookup but that
      entry's, and the keys stay distinct. */
  lemma {:induction false} UpdateKeepsLookups(reg: Registry, i: nat, configs: seq<CallbackConfig>)
    requires DistinctKeys(reg) && i < |reg|
    ensures DistinctKeys(reg[i := (reg[i].0, configs)])
    ensures Get(reg[i := (reg[i].0, configs)], reg[i].0) == Some(configs)
    ensures forall l :: l != reg[i].0 ==> Get(reg[i := (reg[i].0, configs)], l) == Get(reg, l)
  {
    var reg' := reg[i := (reg[i].0, configs)];
    var k := KeyIndex(reg', reg[i].0);
    assert reg'[i].0 == reg[i].0;
    assert k == Some(i) by {
      assert k.Some?;
    }
    forall l | l != reg[i].0
      ensures Get(reg', l) == Get(reg, l)
    {
      var a, b := KeyIndex(reg', l), KeyIndex(reg, l);
      if a.Some? {
        assert reg[a.value].0 == l;
        assert b.Some?;
      } else {
        assert forall j :: 0 <= j < |reg| ==> reg[j].0 == reg'[j].0;
      }
    }
  }

  // ----- Emission -----

  /** What one `__log` call does: nothing, or emit the text in a colour and
      call the selected callbacks in order. */
  datatype Emission =
    | Suppressed
    | Emitted(level: LogLevel, text: string, color: ColorArg, fired: seq<CallbackConfig>)

  /** The callbacks the loop over the dictionary's items calls: those of
      every entry whose key equals the message's level, in order. */
  function Selected(reg: Registry, level: LogLevel): (r: seq<CallbackConfig>)
    ensures forall c :: c in r ==> exists i :: 0 <= i < |reg| && reg[i].0 == level && c in reg[i].1
  {
    if |reg| == 0 then []
    else
      var head := if reg[0].0 == level then reg[0].1 else [];
      head + Selected(reg[1..], level)
  }

  /** `color or self.default_color or PrintColor.COLOR_OFF`: the first
      truthy choice, where `None` and the empty string are falsy. */
  function LogColor(color: Option<ColorArg>, defaultColor: Option<string>): (r: ColorArg)
    ensures color.Some? && color.value != Raw("") ==> r == color.value
    ensures (color.None? || color.value == Raw("")) && defaultColor.Some? && defaultColor.value != "" ==> r == Raw(defaultColor.value)
    ensures (color.None? || color.value == Raw("")) && (defaultColor.None? || defaultColor.value == "") ==> r == Named(ColorOff)
  {
    if color.Some? && color.value != Raw("") then color.value
    else if defaultColor.Some? && defaultColor.value != "" then Raw(defaultColor.value)
    else Named(ColorOff)
  }

  /** `__log(level, text, color)`. */
  function Log(lg: Logger, level: LogLevel, text: string, color: Option<ColorArg>): (e: Emission)
    ensures e.Emitted? <==> Le(lg.level, level)
    ensures e.Emitted? ==> e.level == level && e.text == text
    ensures e.Emitted? ==> e.color == LogColor(color, lg.defaultColor) && e.fired == Selected(lg.callbacks, level)
  {
    if Le(lg.level, level) then Emitted(level, text, LogColor(color, lg.defaultColor), Selected(lg.callbacks, level))
    else Suppressed
  }

  /** The argument of the level setter: a level, or any other object,
      kept as its text. */
  datatype LevelArg = Known(level: LogLevel) | Unrecognized(repr: string)

  /** The `log_level` setter: a real level is stored; anything else first
      logs a warning at the old level, then falls back to `INFO`. */
  function SetLogLevel(lg: Logger, arg: LevelArg): (r: (Logger, Emission))
    ensures r.0.level == (if arg.Known? then arg.level else Info)
    ensures r.0.callbacks == lg.callbacks && r.0.defaultColor == lg.defaultColor
    ensures arg.Known? ==> r.1.Suppressed?
    ensures arg.Unrecognized? ==> (r.1.Emitted? <==> Le(lg.level, Warning))
    ensures arg.Unrecognized? && r.1.Emitted? ==>
              r.1.level == Warning && r.1.color == Named(Yellow) && r.1.fired == Selected(lg.callbacks, Warning)
  {
    match arg
    case Known(l) => (lg.(level := l), Suppressed)
    case Unrecognized(repr) =>
      var warning := Log(lg, Warning, "Unrecognized level [" + repr + "]. Defaulting to INFO", Some(Named(Yellow)));
      (lg.(level := Info), warning)
  }

  // ----- Banner -----

  const MaxHeaderWidth: nat := 120

  datatype BannerError = ZeroDivision

  /** `symbol * int(120 / len(symbol))`; an empty symbol divides by zero. */
  function BannerHeader(symbol: string): (r: Result<string, BannerError>)
    ensures r.Err? <==> symbol == []
    ensures r.Ok? ==> |r.value| == |symbol| * (MaxHeaderWidth / |symbol|)
    ensures r.Ok? ==> |r.value| <= MaxHeaderWidth && |r.value| > MaxHeaderWidth - |symbol|
    ensures r.Ok? && |symbol| <= MaxHeaderWidth ==> |r.value| >= |symbol| && r.value[..|symbol|] == symbol
    ensures r.Ok? ==> forall i :: 0 <= i < |r.value| - |symbol| ==> r.value[i + |symbol|] == r.value[i]
  {
    if |symbol| == 0 then Err(ZeroDivision)
    else
      var h := Repeat(symbol, MaxHeaderWidth / |symbol|);
      RepeatPeriodic(symbol, MaxHeaderWidth / |symbol|);
      DivBounds(MaxHeaderWidth, |symbol|);
      Ok(h)
  }

  /** `banner`: the header, the text and the header again, each logged at
      `INFO`. */
  function Banner(lg: Logger, text: string, color: ColorArg, symbol: string): (r: Result<seq<Emission>, BannerError>)
    ensures r.Err? <==> symbol == []
    ensures r.Ok? ==> |r.value| == 3
    ensures r.Ok? ==> forall e :: e in r.value ==> (e.Emitted? <==> Le(lg.level, Info))
    ensures r.Ok? && Le(lg.level, Info) ==>
              r.value[1].text == text && r.value[0] == r.value[2]
              && r.value[0].text == BannerHeader(symbol).value
    ensures r.Ok? ==> forall e :: e in r.value && e.Emitted? ==>
              && e.level == Info
              && e.color == LogColor(Some(color), lg.defaultColor)
              && e.fired == Selected(lg.callbacks, Info)
  {
    match BannerHeader(symbol)
    case Err(e) => Err(e)
    case Ok(header) =>
      Ok([Log(lg, Info, header, Some(color)), Log(lg, Info, text, Some(color)), Log(lg, Info, header, Some(color))])
  }

  /** A repetition starts with the symbol and repeats with its period. */
  lemma {:induction false} RepeatPeriodic(symbol: string, n: nat)
    ensures n > 0 ==> Repeat(symbol, n)[..|symbol|] == symbol
    ensures forall i :: 0 <= i < |Repeat(symbol, n)| - |symbol| ==>
              Repeat(symbol, n)[i + |symbol|] == Repeat(symbol, n)[i]
  {
    if n > 0 {
      RepeatPeriodic(symbol, n - 1);
      var r, rest := Repeat(symbol, n), Repeat(symbol, n - 1);
      assert r == symbol + rest;
      forall i | 0 <= i < |r| - |symbol|
        ensures r[i + |symbol|] == r[i]
      {
        assert r[i + |symbol|] == rest[i];
        if i >= |symbol| {
          assert r[i] == rest[i - |symbol|];
          assert rest[(i - |symbol|) + |symbol|] == rest[i - |symbol|];
        } else {
          assert n - 1 > 0;
          assert rest[..|symbol|] == symbol;
          assert rest[i] == rest[..|symbol|][i];
        }
      }
    }
  }

  /** Integer division leaves a remainder below the divisor. */
  lemma DivBounds(a: nat, b: nat)
    requires b > 0
    ensures b * (a / b) <= a < b * (a / b) + b
    ensures b <= a ==> b * (a / b) >= b
  {
  }

  // ----- Properties -----

  /** The dictionary loop calls exactly the configs registered under the
      message's level, in registration order. */
  lemma {:induction false} SelectedIsLevelList(reg: Registry, level: LogLevel)
    requires DistinctKeys(reg)
    ensures Selected(reg, level) == Get(reg, level).GetOr([])
  {
    if |reg| > 0 {
      var tail := reg[1..];
      assert DistinctKeys(tail);
      SelectedIsLevelList(tail, level);
      if reg[0].0 == level {
        FirstKeyFound(reg, level);
      } else {
        OtherFirstKey(reg, level);
      }
    }
  }

  /** The first entry's key is found there, and nowhere after it. */
  lemma FirstKeyFound(reg: Registry, level: LogLevel)
    requires DistinctKeys(reg) && |reg| > 0 && reg[0].0 == level
    ensures KeyIndex(reg, level) == Some(0)
    ensures Selected(reg[1..], level) == []
  {
    var tail := reg[1..];
    assert forall i :: 0 <= i < |tail| ==> tail[i].0 != level by {
      forall i | 0 <= i < |tail| ensures tail[i].0 != level {
        assert tail[i] == reg[i + 1];
      }
    }
    SelectedOfAbsent(tail, level);
  }

  /** Nothing is selected for a level without an entry. */
  lemma {:induction false} SelectedOfAbsent(reg: Registry, level: LogLevel)
    requires forall i :: 0 <= i < |reg| ==> reg[i].0 != level
    ensures Selected(reg, level) == []
  {
    if |reg| > 0 {
      assert forall i :: 0 <= i < |reg[1..]| ==> reg[1..][i] == reg[i + 1];
      SelectedOfAbsent(reg[1..], level);
    }
  }

  /** A level other than the first entry's is looked up in the rest. */
  lemma OtherFirstKey(reg: Registry, level: LogLevel)
    requires DistinctKeys(reg) && |reg| > 0 && reg[0].0 != level
    ensures Get(reg, level) == Get(reg[1..], level)
  {
    var tail := reg[1..];
    var k, kt := KeyIndex(reg, level), KeyIndex(tail, level);
    if k.Some? {
      assert tail[k.value - 1].0 == level;
      assert kt.Some?;
    } else {
      assert forall i :: 0 <= i < |tail| ==> tail[i].0 == reg[i + 1].0;
    }
  }

  /** A logger only emits messages at or above its level; a `SILENT`
      logger emits no `ERROR` or lower, and an emitted message fires the
      callbacks of its own level only. */
  lemma EmitGate(lg: Logger, level: LogLevel, text: string, color: Option<ColorArg>)
    requires DistinctKeys(lg.callbacks)
    ensures lg.level == Silent && level != Silent ==> Log(lg, level, text, color).Suppressed?
    ensures Lt(level, lg.level) ==> Log(lg, level, text, color).Suppressed?
    ensures Log(lg, level, text, color).Emitted? ==>
              Log(lg, level, text, color).fired == Get(lg.callbacks, level).GetOr([])
  {
    SelectedIsLevelList(lg.callbacks, level);
  }

  /** Registering then unregistering a callback on a level with no other
      registrations of it leaves that level's list as it was. */
  lemma RegisterThenUnregister(lg: Logger, level: LogLevel, config: CallbackConfig)
    requires DistinctKeys(lg.callbacks)
    requires forall c :: c in Get(lg.callbacks, level).GetOr([]) ==> c.callback != config.callback
    ensures var (lg1, _) := RegisterCallback(lg, level, config);
            var (lg2, ok) := UnregisterCallback(lg1, level, config.callback);
            ok && Get(lg2.callbacks, level) == Some(Get(lg.callbacks, level).GetOr([]))
  {
    var before := Get(lg.callbacks, level).GetOr([]);
    WithoutKeepsOthers(before, config.callback);
    WithoutAppend(before, [config], config.callback);
    assert Without([config], config.callback) == [];
    var (lg1, _) := RegisterCallback(lg, level, config);
    assert Get(lg1.callbacks, level) == Some(before + [config]);
    assert Without(before + [config], config.callback) == before;
  }

  /** Filtering out a callback no config carries changes nothing. */
  lemma {:induction false} WithoutKeepsOthers(configs: seq<CallbackConfig>, callback: nat)
    requires forall c :: c in configs ==> c.callback != callback
    ensures Without(configs, callback) == configs
  {
    if |configs| > 0 {
      assert configs[0] in configs;
      assert forall c :: c in configs[1..] ==> c in configs;
      WithoutKeepsOthers(configs[1..], callback);
      assert configs == [configs[0]] + configs[1..];
    }
  }

  /** Filtering distributes over concatenation. */
  lemma {:induction false} WithoutAppend(a: seq<CallbackConfig>, b: seq<CallbackConfig>, callback: nat)
    ensures Without(a + b, callback) == Without(a, callback) + Without(b, callback)
  {
    if |a| > 0 {
      assert (a + b)[1..] == a[1..] + b;
      assert (a + b)[0] == a[0];
      WithoutAppend(a[1..], b, callback);

    } else {
      assert a + b == b;
    }
  }

  /** The setter's fallback: an unrecognised value always lands on `INFO`,
      and the warning it logs is gated by the level it replaces. */
  lemma SetterFallback(lg: Logger, repr: string)
    ensures SetLogLevel(lg, Unrecognized(repr)).0.level == Info
    ensures lg.level == Silent ==> SetLogLevel(lg, Unrecognized(repr)).1.Suppressed?
    ensures lg.level == Info ==> SetLogLevel(lg, Unrecognized(repr)).1.Emitted?
  {
  }

  /** The default `=` symbol gives a 120-character header. */
  lemma DefaultBannerWidth()
    ensures BannerHeader("=").Ok? && |BannerHeader("=").value| == 120
  {
  }
}

=== FILE: markdown_utils.dfy ===
/** Markdown helpers: a check-mark for a boolean and rendering of a grid of
    strings as a Markdown table. */
module MarkdownUtils {
  import opened Wrappers
  import opened Text
  import StringUtils

  /** `emoji(value)`: a green check mark for true, a red cross for false. */
  function Emoji(value: bool): (r: string)
    ensures |r| == 1
    ensures r == (if value then "\U{2705}" else "\U{274C}")
  {
    if value then "\U{2705}" else "\U{274C}"
  }

  lemma EmojiDistinguishes(a: bool, b: bool)
    ensures Emoji(a) == Emoji(b) <==> a == b
  {
  }

  datatype TableError = EmptyInput   // ValueError

  /** Column widths: `zip(*data)` yields as many columns as the shortest
      row has cells, each as wide as its widest cell. */
  function Widths(data: seq<seq<string>>): (widths: seq<nat>)
    requires |data| > 0
    ensures |widths| == MinRowLength(data)
    ensures forall c :: 0 <= c < |widths| ==> widths[c] == ColumnWidth(data, c)
  {
    seq(MinRowLength(data), c requires 0 <= c < MinRowLength(data) => ColumnWidth(data, c))
  }

  /** The cells of a row, each left-justified to its column's width. */
  function PaddedCells(cells: seq<string>, widths: seq<nat>): (padded: seq<string>)
    requires |cells| >= |widths|
    ensures |padded| == |widths|
    ensures forall i :: 0 <= i < |widths| ==> padded[i] == PadRight(cells[i], widths[i])
  {
    seq(|widths|, i requires 0 <= i < |widths| => PadRight(cells[i], widths[i]))
  }

  /** A data line: `"| "`, the padded cells joined by `" | "`, `" |"`.
      Cells beyond the column count are dropped (`str.format` ignores
      surplus arguments). */
  function Row(cells: seq<string>, widths: seq<nat>): string
    requires |cells| >= |widths|
  {
    "| " + Join(PaddedCells(cells, widths), " | ") + " |"
  }

  /** The line under the header: a run of dashes as wide as each column,
      framed like a data line with dashes in place of the blanks. */
  function Separator(widths: seq<nat>): string
  {
    "|-" + Join(seq(|widths|, i requires 0 <= i < |widths| => Repeat("-", widths[i])), "-|-") + "-|"
  }

  /** The table's lines: the first row, the separator, the other rows. */
  function TableLines(data: seq<seq<string>>): seq<string>
    requires |data| > 0
  {
    var w := Widths(data);
    [Row(data[0], w), Separator(w)] + seq(|data| - 1, i requires 0 <= i < |data| - 1 => Row(data[i + 1], w))
  }

  /** `get_table(data)`: the lines joined by newlines; no rows is an error. */
  function GetTable(data: seq<seq<string>>): (r: Result<string, TableError>)
    ensures r.Err? <==> |data| == 0
    ensures r.Ok? ==> r.value == Join(TableLines(data), "\n")
  {
    if |data| == 0 then Err(EmptyInput) else Ok(Join(TableLines(data), "\n"))
  }

  /** The length every line of a table with these column widths has. */
  function LineWidth(widths: seq<nat>): nat
  {
    if |widths| == 0 then 4 else Sum(widths) + 3 * |widths| + 1
  }

  lemma RowLength(cells: seq<string>, widths: seq<nat>)
    requires |cells| >= |widths|
    requires forall i :: 0 <= i < |widths| ==> |cells[i]| <= widths[i]
    ensures |Row(cells, widths)| == LineWidth(widths)
  {
    var padded := PaddedCells(cells, widths);
    if |widths| > 0 {
      JoinLength(padded, " | ");
      TotalLengthOfWidths(padded, widths);
    }
  }

  lemma SeparatorLength(widths: seq<nat>)
    ensures |Separator(widths)| == LineWidth(widths)
  {
    var dashes := seq(|widths|, i requires 0 <= i < |widths| => Repeat("-", widths[i]));
    if |widths| > 0 {
      JoinLength(dashes, "-|-");
      TotalLengthOfWidths(dashes, widths);
    }
  }

  /** A table of `n` rows has `n + 1` lines: the first row, the separator,
      then the other rows in order. */
  lemma TableLineOrder(data: seq<seq<string>>)
    requires |data| > 0
    ensures var lines := TableLines(data);
            && |lines| == |data| + 1
            && lines[0] == Row(data[0], Widths(data))
            && lines[1] == Separator(Widths(data))
            && forall i :: 1 <= i < |data| ==> lines[i + 1] == Row(data[i], Widths(data))
  {
  }

  /** Every cell is padded to exactly its column's width, which is the
      widest cell of that column. */
  lemma CellsFillColumns(data: seq<seq<string>>, i: nat, c: nat)
    requires |data| > 0 && i < |data| && c < |Widths(data)|
    ensures |PaddedCells(data[i], Widths(data))[c]| == Widths(data)[c]
    ensures exists k :: 0 <= k < |data| && |data[k][c]| == Widths(data)[c]
  {
  }

  lemma DataLineWidth(data: seq<seq<string>>, k: nat)
    requires |data| > 0 && k < |data|
    ensures |Row(data[k], Widths(data))| == LineWidth(Widths(data))
  {
    var w := Widths(data);
    assert forall c :: 0 <= c < |w| ==> |data[k][c]| <= w[c];
    RowLength(data[k], w);
  }

  lemma LineWidthAt(data: seq<seq<string>>, i: nat)
    requires |data| > 0 && i < |TableLines(data)|
    ensures |TableLines(data)[i]| == LineWidth(Widths(data))
  {
    var w := Widths(data);
    var lines := TableLines(data);
    if i == 1 {
      assert lines[1] == Separator(w);
      SeparatorLength(w);
    } else {
      var k := if i == 0 then 0 else i - 1;
      assert lines[i] == Row(data[k], w);
      DataLineWidth(data, k);
    }
  }

  /** All lines of a table have one length. */
  lemma TableLineWidths(data: seq<seq<string>>)
    requires |data| > 0
    ensures forall i :: 0 <= i < |TableLines(data)| ==> |TableLines(data)[i]| == LineWidth(Widths(data))
  {
    forall i | 0 <= i < |TableLines(data)| ensures |TableLines(data)[i]| == LineWidth(Widths(data)) {
      LineWidthAt(data, i);
    }
  }

  /** The rendered table's length: `n + 1` lines of equal width and `n`
      newlines between them. */
  lemma TableLength(data: seq<seq<string>>)
    requires |data| > 0
    ensures |GetTable(data).value| == (|data| + 1) * LineWidth(Widths(data)) + |data|
  {
    var lines := TableLines(data);
    TableLineOrder(data);
    TableLineWidths(data);
    JoinLength(lines, "\n");
    TotalLengthOfWidths(lines, seq(|lines|, _ => LineWidth(Widths(data))));
    SumConstant(|lines|, LineWidth(Widths(data)));
  }

  /** For a rectangular grid of two or more rows, a data line is the row of
      the grid aligned without extra padding, framed by pipes. */
  lemma RowIsAlignedRow(data: seq<seq<string>>, i: nat)
    requires |data| >= 2 && StringUtils.Rectangular(data) && i < |data|
    ensures var aligned := StringUtils.GetAlignedText(data, 0);
            && aligned.Ok?
            && Row(data[i], Widths(data)) == "| " + Join(aligned.value[i], " | ") + " |"
  {
    var aligned := StringUtils.GetAlignedText(data, 0);
    var w := Widths(data);
    assert MinRowLength(data) == |data[0]|;
    assert PaddedCells(data[i], w) == aligned.value[i];
  }
}

=== FILE: string_utils.dfy ===
/** Hex dumping of bytes, column alignment of a text grid and removal of
    control characters. */
module StringUtils {
  import opened Wrappers
  import opened Text

  type Byte = b: nat | b < 256

  // ----- bytearray2str -----

  /** The argument kinds the hex dump accepts: `None`, a Python list of byte
      values, or a `bytes`/`bytearray` buffer. */
  datatype HexSource = NoData | ByteList(items: seq<Byte>) | Buffer(bytes: seq<Byte>)

  const NoDataText: string := "<no data>"

  /** One upper-case hexadecimal digit. */
  function HexDigit(d: nat): (c: char)
    requires d < 16
    ensures ('0' <= c <= '9') || ('A' <= c <= 'F')
  {
    if d < 10 then ('0' as int + d) as char else ('A' as int + d - 10) as char
  }

  /** `f'{byte:>02X}'`: two upper-case, zero-padded hex digits. */
  function ByteHex(b: Byte): (r: string)
    ensures |r| == 2
  {
    [HexDigit(b / 16), HexDigit(b % 16)]
  }

  /** The `simple_hex` dump: the byte pairs back to back. */
  function HexSimple(bs: seq<Byte>): (r: string)
    ensures |r| == 2 * |bs|
    ensures forall i :: 0 <= i < |bs| ==> r[2 * i..2 * i + 2] == ByteHex(bs[i])
  {
    if |bs| == 0 then ""
    else
      var rest := HexSimple(bs[1..]);
      var r := ByteHex(bs[0]) + rest;
      assert forall i :: 1 <= i < |bs| ==> r[2 * i..2 * i + 2] == rest[2 * (i - 1)..2 * (i - 1) + 2];
      r
  }

  /** The default dump: the byte pairs joined by colons. */
  function HexColon(bs: seq<Byte>): (r: string)
  {
    Join(seq(|bs|, i requires 0 <= i < |bs| => ByteHex(bs[i])), ":")
  }

  /** `bytearray2str(data, simple_hex)`: `None` for `None`, a marker for an
      empty list, and the hex dump of the bytes otherwise. */
  function ByteArrayToStr(data: HexSource, simpleHex: bool): (r: Option<string>)
    ensures r.None? <==> data.NoData?
    ensures data == ByteList([]) ==> r == Some(NoDataText)
    ensures data.Buffer? ==> r == Some(if simpleHex then HexSimple(data.bytes) else HexColon(data.bytes))
    ensures data.ByteList? && |data.items| > 0 ==>
              r == Some(if simpleHex then HexSimple(data.items) else HexColon(data.items))
  {
    match data
    case NoData => None
    case ByteList(items) =>
      if |items| == 0 then Some(NoDataText)
      else Some(if simpleHex then HexSimple(items) else HexColon(items))
    case Buffer(bytes) => Some(if simpleHex then HexSimple(bytes) else HexColon(bytes))
  }

  /** The value of an upper-case hex digit. */
  function HexValue(c: char): Option<nat>
  {
    if '0' <= c <= '9' then Some(c as int - '0' as int)
    else if 'A' <= c <= 'F' then Some(c as int - 'A' as int + 10)
    else None
  }

  /** Reads a `simple_hex` dump back into bytes. */
  function DecodeHex(s: string): Option<seq<Byte>>
    decreases |s|
  {
    if |s| == 0 then Some([])
    else if |s| == 1 then None
    else
      match (HexValue(s[0]), HexValue(s[1]), DecodeHex(s[2..]))
      case (Some(hi), Some(lo), Some(rest)) =>
        if hi < 16 && lo < 16 then Some([(16 * hi + lo) as Byte] + rest) else None
      case _ => None
  }

  /** Deletes every `:` from a string. */
  function RemoveColons(s: string): (r: string)
  {
    if |s| == 0 then ""
    else (if s[0] == ':' then "" else [s[0]]) + RemoveColons(s[1..])
  }

  lemma {:induction false} RemoveColonsAppend(a: string, b: string)
    ensures RemoveColons(a + b) == RemoveColons(a) + RemoveColons(b)
  {
    if |a| > 0 {
      assert (a + b)[0] == a[0];
      assert (a + b)[1..] == a[1..] + b;
      RemoveColonsAppend(a[1..], b);
    } else {
      assert a + b == b;
    }
  }

  lemma ByteHexHasNoColon(b: Byte)
    ensures RemoveColons(ByteHex(b)) == ByteHex(b)
  {
    var h := ByteHex(b);
    assert h[0] != ':' && h[1] != ':';
    assert h[1..][1..] == "";
    assert RemoveColons(h[1..]) == [h[1]] + RemoveColons("");
    assert RemoveColons(h) == [h[0]] + RemoveColons(h[1..]);
  }

  lemma HexDigitValue(d: nat)
    requires d < 16
    ensures HexValue(HexDigit(d)) == Some(d)
  {
  }

  /** The hex dump is lossless: decoding the digit pairs gives the bytes
      back, so different byte strings never dump alike. */
  lemma {:induction false} HexRoundTrip(bs: seq<Byte>)
    ensures DecodeHex(HexSimple(bs)) == Some(bs)
  {
    if |bs| > 0 {
      var s := HexSimple(bs);
      HexDigitValue(bs[0] / 16);
      HexDigitValue(bs[0] % 16);
      assert s[2..] == HexSimple(bs[1..]);
      HexRoundTrip(bs[1..]);
      assert [bs[0]] + bs[1..] == bs;
    }
  }

  lemma HexSimpleInjective(a: seq<Byte>, b: seq<Byte>)
    requires HexSimple(a) == HexSimple(b)
    ensures a == b
  {
    HexRoundTrip(a);
    HexRoundTrip(b);
  }

  /** Colon mode dumps the same digit pairs with a colon between
      neighbours: `""` for no bytes, `3n - 1` characters for `n > 0`, and
      deleting the colons leaves the `simple_hex` dump. */
  lemma {:induction false} HexColonShape(bs: seq<Byte>)
    ensures |bs| == 0 ==> HexColon(bs) == ""
    ensures |bs| > 0 ==> |HexColon(bs)| == 3 * |bs| - 1
    ensures RemoveColons(HexColon(bs)) == HexSimple(bs)
  {
    var pairs := seq(|bs|, i requires 0 <= i < |bs| => ByteHex(bs[i]));
    if |bs| > 0 {
      JoinLength(pairs, ":");
      TotalLengthOfWidths(pairs, seq(|bs|, _ => 2));
      SumConstant(|bs|, 2);
      if |bs| == 1 {
        assert HexColon(bs) == ByteHex(bs[0]);
        ByteHexHasNoColon(bs[0]);
        assert HexSimple(bs) == ByteHex(bs[0]) + HexSimple([]);
      } else {
        var rest := seq(|bs| - 1, i requires 0 <= i < |bs| - 1 => ByteHex(bs[1..][i]));
        assert pairs[1..] == rest;
        assert HexColon(bs) == ByteHex(bs[0]) + ":" + HexColon(bs[1..]);
        HexColonShape(bs[1..]);
        RemoveColonsAppend(ByteHex(bs[0]) + ":", HexColon(bs[1..]));
        RemoveColonsAppend(ByteHex(bs[0]), ":");
        ByteHexHasNoColon(bs[0]);
      }
    }
  }

  // ----- get_aligned_text -----

  datatype AlignError =
    | NegativePadding(padding: int)   // ValueError
    | RaggedRows                      // IndexError on rows of unequal length

  /** Every row has as many cells as the first. */
  predicate Rectangular(text: seq<seq<string>>)
  {
    forall r :: 0 <= r < |text| ==> |text[r]| == |text[0]|
  }

  /** `col_widths`: each column's widest cell plus the padding. */
  function ColumnWidths(text: seq<seq<string>>, padding: nat): (widths: seq<nat>)
    requires |text| > 0 && Rectangular(text)
    ensures |widths| == |text[0]|
    ensures forall c :: 0 <= c < |widths| ==> widths[c] == ColumnWidth(text, c) + padding
  {
    seq(|text[0]|, c requires 0 <= c < |text[0]| => ColumnWidth(text, c) + padding)
  }

  function MaxOf(xs: seq<nat>): (m: nat)
    requires |xs| > 0
    ensures forall i :: 0 <= i < |xs| ==> xs[i] <= m
    ensures exists i :: 0 <= i < |xs| && xs[i] == m
  {
    if |xs| == 1 then xs[0]
    else
      var rest := MaxOf(xs[1..]);
      assert forall i :: 1 <= i < |xs| ==> xs[1..][i - 1] == xs[i];
      if xs[0] < rest then rest else xs[0]
  }

  /** `get_aligned_text(text, extra_padding)`: pads every cell with blanks
      to its column's width (a single row: to the widest column). */
  function GetAlignedText(text: seq<seq<string>>, padding: int): (r: Result<seq<seq<string>>, AlignError>)
    ensures padding < 0 ==> r == Err(NegativePadding(padding))
    ensures padding >= 0 && |text| == 0 ==> r == Ok([])
    ensures padding >= 0 ==> (r == Err(RaggedRows) <==> !Rectangular(text))
    ensures r.Ok? ==> |r.value| == |text| && forall i :: 0 <= i < |text| ==> |r.value[i]| == |text[i]|
  {
    if padding < 0 then Err(NegativePadding(padding))
    else if |text| == 0 then Ok([])
    else if !Rectangular(text) then Err(RaggedRows)
    else
      var widths := ColumnWidths(text, padding);
      if |text| == 1 then
        Ok([seq(|text[0]|, c requires 0 <= c < |text[0]| => PadRight(text[0][c], MaxOf(widths)))])
      else
        Ok(seq(|text|, i requires 0 <= i < |text| =>
          seq(|text[i]|, c requires 0 <= c < |text[i]| => PadRight(text[i][c], widths[c]))))
  }

  /** With two or more rows every cell keeps its text and is followed by
      blanks up to one common width per column: the column's widest cell
      plus the padding. */
  lemma AlignedColumns(text: seq<seq<string>>, padding: nat)
    requires |text| >= 2 && Rectangular(text)
    ensures var r := GetAlignedText(text, padding);
            && r.Ok?
            && forall i, c :: 0 <= i < |text| && 0 <= c < |text[i]| ==>
                 && |r.value[i][c]| == ColumnWidth(text, c) + padding
                 && r.value[i][c][..|text[i][c]|] == text[i][c]
                 && forall k :: |text[i][c]| <= k < |r.value[i][c]| ==> r.value[i][c][k] == ' '
  {
    var r := GetAlignedText(text, padding);
    var widths := ColumnWidths(text, padding);
    assert forall i, c :: 0 <= i < |text| && 0 <= c < |text[i]| ==> r.value[i][c] == PadRight(text[i][c], widths[c]);
  }

  /** A single row has every cell keep its text, followed by blanks up to
      one width for all cells: the widest cell plus the padding. */
  lemma AlignedSingleRow(row: seq<string>, padding: nat)
    requires |row| > 0
    ensures var r := GetAlignedText([row], padding);
            && r.Ok? && |r.value| == 1
            && (exists c :: 0 <= c < |row| && |r.value[0][c]| == |row[c]| + padding)
            && forall c, d :: 0 <= c < |row| && 0 <= d < |row| ==>
                 |r.value[0][c]| == |r.value[0][d]| >= |row[d]| + padding
    ensures var r := GetAlignedText([row], padding);
            && r.Ok? && |r.value| == 1 && |r.value[0]| == |row|
            && forall c :: 0 <= c < |row| ==>
                 && r.value[0][c][..|row[c]|] == row[c]
                 && forall k :: |row[c]| <= k < |r.value[0][c]| ==> r.value[0][c][k] == ' '
  {
    var widths := ColumnWidths([row], padding);
    var m := MaxOf(widths);
    var r := GetAlignedText([row], padding);
    assert forall c :: 0 <= c < |row| ==> ColumnWidth([row], c) == |row[c]|;
    assert forall c :: 0 <= c < |row| ==> r.value[0][c] == PadRight(row[c], m);
  }

  // ----- remove_control_chars -----

  /** Code points 0 to 31 and 127. */
  predicate IsControl(c: char)
  {
    c as int < 32 || c as int == 127
  }

  /** `remove_control_chars(text)`: the text with every control character
      deleted and the rest kept in order. */
  function RemoveControlChars(s: string): (r: string)
    ensures |r| <= |s|
    ensures forall i :: 0 <= i < |r| ==> !IsControl(r[i])
  {
    if |s| == 0 then ""
    else (if IsControl(s[0]) then "" else [s[0]]) + RemoveControlChars(s[1..])
  }

  /** Each character occurs in the result as often as in the text, unless
      it is a control character, which does not occur at all. */
  lemma {:induction false} RemoveControlCharsCounts(s: string)
    ensures forall c :: multiset(RemoveControlChars(s))[c] == if IsControl(c) then 0 else multiset(s)[c]
  {
    if |s| > 0 {
      RemoveControlCharsCounts(s[1..]);
      assert s == [s[0]] + s[1..];
      assert multiset(s) == multiset{s[0]} + multiset(s[1..]);
    }
  }

  /** Filtering works piecewise, which fixes the order of what is kept. */
  lemma {:induction false} RemoveControlCharsAppend(a: string, b: string)
    ensures RemoveControlChars(a + b) == RemoveControlChars(a) + RemoveControlChars(b)
  {
    if |a| > 0 {
      assert (a + b)[0] == a[0];
      assert (a + b)[1..] == a[1..] + b;
      RemoveControlCharsAppend(a[1..], b);
    } else {
      assert a + b == b;
    }
  }

  /** Text without control characters is left alone, and only such text. */
  lemma {:induction false} RemoveControlCharsFixes(s: string)
    ensures RemoveControlChars(s) == s <==> forall i :: 0 <= i < |s| ==> !IsControl(s[i])
  {
    if |s| > 0 {
      RemoveControlCharsFixes(s[1..]);
      if IsControl(s[0]) {
        assert |RemoveControlChars(s)| <= |s[1..]|;
      }
    }
  }

  /** Removing twice removes nothing more. */
  lemma RemoveControlCharsIdempotent(s: string)
    ensures RemoveControlChars(RemoveControlChars(s)) == RemoveControlChars(s)
  {
    RemoveControlCharsFixes(RemoveControlChars(s));
  }
}

=== FILE: text.dfy ===
/** String and sequence helpers shared by the formatting modules: Python's
    `s * n`, `f'{s:<w}'`, `sep.join(xs)`, `max(...)` over a table column and
    decimal rendering of integers. */
module Text {

  /** `s * n` in Python: `n` copies of `s` back to back. */
  function Repeat(s: string, n: nat): (r: string)
    ensures |r| == |s| * n
    ensures forall i :: 0 <= i < |r| && |s| == 1 ==> r[i] == s[0]
  {
    if n == 0 then "" else s + Repeat(s, n - 1)
  }

  /** A run of `n` blanks. */
  function Spaces(n: nat): (r: string)
    ensures |r| == n
    ensures forall i :: 0 <= i < n ==> r[i] == ' '
  {
    seq(n, _ => ' ')
  }

  function Max(a: int, b: int): int {
    if a < b then b else a
  }

  /** Left justification to `width` (`f'{s:<{width}}'`): the text followed by
      blanks up to `width`; text already that wide is left as it is. */
  function PadRight(s: string, width: int): (r: string)
    ensures |r| == Max(|s|, width)
    ensures r[..|s|] == s
    ensures forall i :: |s| <= i < |r| ==> r[i] == ' '
  {
    if width <= |s| then s else s + Spaces(width - |s|)
  }

  /** `sep.join(xs)` in Python. */
  function Join(xs: seq<string>, sep: string): string
  {
    if |xs| == 0 then ""
    else if |xs| == 1 then xs[0]
    else xs[0] + sep + Join(xs[1..], sep)
  }

  /** Total length of the strings in `xs`. */
  function TotalLength(xs: seq<string>): nat
  {
    if |xs| == 0 then 0 else |xs[0]| + TotalLength(xs[1..])
  }

  function Sum(xs: seq<nat>): nat
  {
    if |xs| == 0 then 0 else xs[0] + Sum(xs[1..])
  }

  /** A joined string is as long as its parts plus one separator between
      each neighbouring pair. */
  lemma {:induction false} JoinLength(xs: seq<string>, sep: string)
    requires |xs| > 0
    ensures |Join(xs, sep)| == TotalLength(xs) + |sep| * (|xs| - 1)
  {
    if |xs| > 1 {
      JoinLength(xs[1..], sep);
    }
  }

  /** Joining a list with one more part in front. */
  lemma JoinCons(x: string, xs: seq<string>, sep: string)
    requires |xs| > 0
    ensures Join([x] + xs, sep) == x + sep + Join(xs, sep)
  {
    assert ([x] + xs)[1..] == xs;
  }

  /** When every part has its own prescribed width, the parts' total is the
      sum of the widths. */
  lemma {:induction false} TotalLengthOfWidths(xs: seq<string>, widths: seq<nat>)
    requires |xs| == |widths|
    requires forall i :: 0 <= i < |xs| ==> |xs[i]| == widths[i]
    ensures TotalLength(xs) == Sum(widths)
  {
    if |xs| > 0 {
      TotalLengthOfWidths(xs[1..], widths[1..]);
    }
  }

  /** `n` equal widths add up to `n` times the width. */
  lemma {:induction false} SumConstant(n: nat, k: nat)
    ensures Sum(seq(n, _ => k)) == n * k
  {
    if n > 0 {
      assert seq(n, _ => k)[1..] == seq(n - 1, _ => k);
      SumConstant(n - 1, k);
    }
  }

  /** Every row of `rows` has a cell in column `c`. */
  predicate HasColumn(rows: seq<seq<string>>, c: nat)
  {
    forall r :: 0 <= r < |rows| ==> c < |rows[r]|
  }

  /** `max(len(row[c]) for row in rows)`: the widest cell of column `c`. */
  function ColumnWidth(rows: seq<seq<string>>, c: nat): (w: nat)
    requires |rows| > 0 && HasColumn(rows, c)
    ensures forall r :: 0 <= r < |rows| ==> |rows[r][c]| <= w
    ensures exists r :: 0 <= r < |rows| && |rows[r][c]| == w
  {
    if |rows| == 1 then |rows[0][c]|
    else
      var rest := ColumnWidth(rows[1..], c);
      assert forall r :: 1 <= r < |rows| ==> rows[1..][r - 1] == rows[r];
      if |rows[0][c]| < rest then rest else |rows[0][c]|
  }

  /** The shortest row length, the number of columns `zip(*rows)` yields. */
  function MinRowLength(rows: seq<seq<string>>): (n: nat)
    requires |rows| > 0
    ensures forall r :: 0 <= r < |rows| ==> n <= |rows[r]|
    ensures exists r :: 0 <= r < |rows| && |rows[r]| == n
  {
    if |rows| == 1 then |rows[0]|
    else
      var rest := MinRowLength(rows[1..]);
      assert forall r :: 1 <= r < |rows| ==> rows[1..][r - 1] == rows[r];
      if rest < |rows[0]| then rest else |rows[0]|
  }

  /** The character of a decimal digit. */
  function DigitChar(d: nat): (c: char)
    requires d < 10
    ensures '0' <= c <= '9'
  {
    ('0' as int + d) as char
  }

  predicate IsDigit(c: char)
  {
    '0' <= c <= '9'
  }

  function DigitValue(c: char): (d: nat)
    requires IsDigit(c)
    ensures d < 10
  {
    c as int - '0' as int
  }

  /** `str(n)` for a natural number. */
  function NatToString(n: nat): (s: string)
    ensures |s| > 0
    ensures forall i :: 0 <= i < |s| ==> IsDigit(s[i])
    decreases n
  {
    if n < 10 then [DigitChar(n)] else NatToString(n / 10) + [DigitChar(n % 10)]
  }

  /** `str(i)` for an integer: a minus sign in front of negative numbers. */
  function IntToString(i: int): string
  {
    if i < 0 then "-" + NatToString(-i) else NatToString(i)
  }

  /** The number a string of decimal digits denotes (`int(s)`). */
  function DecimalValue(s: string): nat
    requires forall i :: 0 <= i < |s| ==> IsDigit(s[i])
  {
    if |s| == 0 then 0 else 10 * DecimalValue(s[..|s| - 1]) + DigitValue(s[|s| - 1])
  }

  /** Reading back a rendered natural number recovers it. */
  lemma {:induction false} NatToStringRoundTrip(n: nat)
    ensures DecimalValue(NatToString(n)) == n
    decreases n
  {
    if n >= 10 {
      var s := NatToString(n);
      NatToStringRoundTrip(n / 10);
      assert s[..|s| - 1] == NatToString(n / 10);
    }
  }

  /** A negative number renders as a minus sign and a digit string;
      anything else as a digit string alone, and either way the digits read
      back as the magnitude. */
  lemma IntToStringRoundTrip(i: int)
    ensures i < 0 ==> IntToString(i)[0] == '-' && DecimalValue(IntToString(i)[1..]) == -i
    ensures i >= 0 ==> IsDigit(IntToString(i)[0]) && DecimalValue(IntToString(i)) == i
  {
    if i < 0 {
      NatToStringRoundTrip(-i);
      assert IntToString(i)[1..] == NatToString(-i);
    } else {
      NatToStringRoundTrip(i);
    }
  }
}

=== FILE: time_utils.dfy ===
/** UTC-offset rendering for timestamps and the parsing of `date +%z`
    output.  The date-and-time part of a timestamp is an opaque prefix
    `base` (the `strftime` rendering). */
module TimeUtils {
  import opened Wrappers
  import opened Text

  const MinUtcOffsetMinutes: int := -12 * 60   // UTC-12
  const MaxUtcOffsetMinutes: int := 14 * 60    // UTC+14

  predicate ValidOffset(minutes: int)
  {
    MinUtcOffsetMinutes <= minutes <= MaxUtcOffsetMinutes
  }

  function Abs(x: int): nat
  {
    if x < 0 then -x else x
  }

  /** `f'{n:02}'` for a number below 100. */
  function TwoDigits(n: nat): (s: string)
    requires n < 100
    ensures |s| == 2 && IsDigit(s[0]) && IsDigit(s[1])
    ensures DecimalValue(s) == n
  {
    var s := [DigitChar(n / 10), DigitChar(n % 10)];
    assert s[..1] == [s[0]];
    assert s[..1][..0] == [];
    assert DecimalValue(s[..1]) == n / 10;
    assert s[..|s| - 1] == s[..1];
    s
  }

  function SignChar(minutes: int): char
  {
    if minutes >= 0 then '+' else '-'
  }

  function DstStatus(dst: bool): string
  {
    if dst then "ON" else "OFF"
  }

  /** `divmod(abs(minutes), 60)`, zero-padded: the hours and minutes
      fields of a valid offset. */
  function HoursField(minutes: int): (s: string)
    requires ValidOffset(minutes)
    ensures |s| == 2
  {
    TwoDigits(Abs(minutes) / 60)
  }

  function MinutesField(minutes: int): (s: string)
    requires ValidOffset(minutes)
    ensures |s| == 2
  {
    TwoDigits(Abs(minutes) % 60)
  }

  /** `(UTC±HH:MM)` for a valid offset. */
  function UtcClock(minutes: int): (s: string)
    requires ValidOffset(minutes)
    ensures |s| == 11
  {
    "(UTC" + [SignChar(minutes)] + HoursField(minutes) + ":" + MinutesField(minutes) + ")"
  }

  /** `get_local_timestamp_description(dt, utc_offset_minutes, dst)`: never
      fails; an offset out of range is shown as a plain number. */
  function TimestampDescription(base: string, minutes: int, dst: bool): (r: string)
    ensures ValidOffset(minutes) ==> r == base + " " + UtcClock(minutes) + " (DST: " + DstStatus(dst) + ")"
    ensures !ValidOffset(minutes) ==>
              r == base + " (UTC Offset minutes: " + IntToString(minutes) + ") (DST: " + DstStatus(dst) + ")"
  {
    if ValidOffset(minutes) then base + " " + UtcClock(minutes) + " (DST: " + DstStatus(dst) + ")"
    else base + " (UTC Offset minutes: " + IntToString(minutes) + ") (DST: " + DstStatus(dst) + ")"
  }

  datatype TimeError = InvalidUtcOffset(minutes: int)   // ValueError

  /** `get_local_timestamp_filename(dt, utc_offset_minutes, dst)`: an offset
      out of range raises. */
  function TimestampFilename(base: string, minutes: int, dst: bool): (r: Result<string, TimeError>)
    ensures r.Err? <==> !ValidOffset(minutes)
    ensures r.Err? ==> r.error == InvalidUtcOffset(minutes)
    ensures r.Ok? ==> r.value == base + "_" + (if minutes >= 0 then "" else "neg")
                                 + HoursField(minutes) + MinutesField(minutes) + "_DST-" + DstStatus(dst)
  {
    if ValidOffset(minutes) then
      Ok(base + "_" + (if minutes >= 0 then "" else "neg") + HoursField(minutes) + MinutesField(minutes)
         + "_DST-" + DstStatus(dst))
    else Err(InvalidUtcOffset(minutes))
  }

  // ----- get_local_utc_offset_minutes: the parse of `date +%z` -----

  /** `[+-][0-9]{2}[0-9]{2}` matches at index `i`. */
  predicate MatchAt(raw: string, i: nat)
  {
    && i + 5 <= |raw|
    && (raw[i] == '+' || raw[i] == '-')
    && IsDigit(raw[i + 1]) && IsDigit(raw[i + 2]) && IsDigit(raw[i + 3]) && IsDigit(raw[i + 4])
  }

  /** The leftmost match at or after `from` (`re.findall(...)[0]`). */
  function FirstMatch(raw: string, from: nat): (r: Option<nat>)
    ensures r.Some? ==> from <= r.value && MatchAt(raw, r.value)
                        && forall j :: from <= j < r.value ==> !MatchAt(raw, j)
    ensures r.None? ==> forall j :: from <= j ==> !MatchAt(raw, j)
    decreases |raw| - from
  {
    if from + 5 > |raw| then None
    else if MatchAt(raw, from) then Some(from)
    else FirstMatch(raw, from + 1)
  }

  /** The offset a match denotes: sign times (hours * 60 + minutes). */
  function MatchValue(raw: string, i: nat): int
    requires MatchAt(raw, i)
  {
    var hours := DecimalValue(raw[i + 1..i + 3]);
    var mins := DecimalValue(raw[i + 3..i + 5]);
    (if raw[i] == '-' then -1 else 1) * (hours * 60 + mins)
  }

  /** The offset the first `±HHMM` of `raw` denotes, or `None` when there
      is none. */
  function ParseUtcOffset(raw: string): (r: Option<int>)
    ensures r.None? <==> forall j :: 0 <= j ==> !MatchAt(raw, j)
    ensures r.Some? ==> exists i: nat :: MatchAt(raw, i) && r.value == MatchValue(raw, i)
                                    && forall j :: 0 <= j < i ==> !MatchAt(raw, j)
  {
    match FirstMatch(raw, 0)
    case None => None
    case Some(i) => Some(MatchValue(raw, i))
  }

  // ----- Properties -----

  /** The fields of a valid offset: a `+` exactly for non-negative offsets,
      at most 14 hours, fewer than 60 minutes, and together they make up the
      offset. */
  lemma UtcClockFields(minutes: int)
    requires ValidOffset(minutes)
    ensures var c := UtcClock(minutes);
            && c[..4] == "(UTC" && c[7] == ':' && c[10] == ')'
            && (c[4] == '+' <==> minutes >= 0) && (c[4] == '-' <==> minutes < 0)
            && c[5..7] == HoursField(minutes) && c[8..10] == MinutesField(minutes)
            && DecimalValue(HoursField(minutes)) <= 14
            && DecimalValue(MinutesField(minutes)) < 60
            && (if minutes >= 0 then 1 else -1)
               * (DecimalValue(HoursField(minutes)) * 60 + DecimalValue(MinutesField(minutes))) == minutes
  {
  }

  /** Zero is rendered with a plus sign. */
  lemma ZeroOffset()
    ensures UtcClock(0) == "(UTC+00:00)"
  {
  }

  /** Rendering a valid offset as `±HHMM` and parsing it back gives the
      offset, whatever follows it. */
  lemma OffsetRoundTrip(minutes: int, rest: string)
    requires ValidOffset(minutes)
    ensures ParseUtcOffset([SignChar(minutes)] + HoursField(minutes) + MinutesField(minutes) + rest) == Some(minutes)
  {
    var raw := [SignChar(minutes)] + HoursField(minutes) + MinutesField(minutes) + rest;
    assert raw[1..3] == HoursField(minutes);
    assert raw[3..5] == MinutesField(minutes);
    assert MatchAt(raw, 0);
    UtcClockFields(minutes);
  }

  lemma SuffixOfConcat(a: string, b: string, k: nat)
    requires k <= |b|
    ensures (a + b)[|a + b| - k..] == b[|b| - k..]
  {
  }

  /** The description's DST label reads `ON` exactly when DST is active. */
  lemma DstLabel(base: string, minutes: int, dst: bool)
    ensures var d := TimestampDescription(base, minutes, dst);
            dst <==> |d| >= 9 && d[|d| - 9..] == "(DST: ON)"
  {
    if ValidOffset(minutes) {
      DescriptionLabel(base + " " + UtcClock(minutes), dst);
    } else {
      DescriptionLabel(base + " (UTC Offset minutes: " + IntToString(minutes) + ")", dst);
    }
  }

  /** So does the filename's. */
  lemma DstLabelFilename(base: string, minutes: int, dst: bool)
    requires ValidOffset(minutes)
    ensures var f := TimestampFilename(base, minutes, dst).value;
            dst <==> |f| >= 6 && f[|f| - 6..] == "DST-ON"
  {
    FilenameLabel(base + "_" + (if minutes >= 0 then "" else "neg") + HoursField(minutes) + MinutesField(minutes), dst);
  }

  lemma DescriptionLabel(head: string, dst: bool)
    ensures var d := head + " (DST: " + DstStatus(dst) + ")";
            dst <==> |d| >= 9 && d[|d| - 9..] == "(DST: ON)"
  {
    var tail := " (DST: " + DstStatus(dst) + ")";
    assert head + " (DST: " + DstStatus(dst) + ")" == head + tail;
    SuffixOfConcat(head, tail, 9);
    if dst {
      assert tail == " (DST: ON)";
      assert tail[|tail| - 9..] == "(DST: ON)";
    } else {
      assert tail == " (DST: OFF)";
      assert tail[|tail| - 9..][0] == 'D';
    }
  }

  lemma FilenameLabel(head: string, dst: bool)
    ensures var f := head + "_DST-" + DstStatus(dst);
            dst <==> |f| >= 6 && f[|f| - 6..] == "DST-ON"
  {
    var tail := "_DST-" + DstStatus(dst);
    assert head + "_DST-" + DstStatus(dst) == head + tail;
    SuffixOfConcat(head, tail, 6);
    if dst {
      assert tail == "_DST-ON";
      assert tail[|tail| - 6..] == "DST-ON";
    } else {
      assert tail == "_DST-OFF";
      assert tail[|tail| - 6..][0] == 'S';
    }
  }
}

=== FILE: wrappers.dfy ===
/** Option and Result wrappers used across the model: Python's `None` and
    raised exceptions become values of these types. */
module Wrappers {

  /** A value that may be absent (Python's `None`). */
  datatype Option<+T> = None | Some(value: T) {

    /** The wrapped value, or `default` when absent. */
    function GetOr(default: T): T {
      match this
      case Some(v) => v
      case None => default
    }
  }

  /** Either a normal return value or the exception the call raises. */
  datatype Result<+T, +E> = Ok(value: T) | Err(error: E)
}

=== FILE: yaml_utils.dfy ===
/** `get_nested` over YAML data: the lenient nested lookup that yields
    `None` for anything it cannot reach. */
module YamlUtils {
  import opened Wrappers
  import opened DictUtils

  /** `get_nested(data, *keys)`: `node = node.get(key)` for each key;
      calling `.get` on something that is not a mapping (including `None`
      after a missing key) is caught and yields `None`. */
  function GetNested<A>(data: Value<A>, keys: seq<string>): (r: Value<A>)
    ensures |keys| == 0 ==> r == data
    ensures At(data, keys).Some? ==> r == At(data, keys).value
    decreases |keys|
  {
    if |keys| == 0 then data
    else if !data.Dict? then Null
    else GetNested(if keys[0] in data.entries then data.entries[keys[0]] else Null, keys[1..])
  }

  /** Anything not found along the path gives `None`. */
  lemma {:induction false} GetNestedMissing<A>(data: Value<A>, keys: seq<string>)
    requires At(data, keys).None?
    ensures GetNested(data, keys) == Null
  {
    if |keys| > 0 && data.Dict? {
      if keys[0] in data.entries {
        GetNestedMissing(data.entries[keys[0]], keys[1..]);
      } else {
        NullYieldsNull<A>(keys[1..]);
      }
    }
  }

  lemma NullYieldsNull<A>(keys: seq<string>)
    ensures GetNested<A>(Null, keys) == Null
  {
  }

  /** On a mapping, `get_nested` is the lenient nested lookup with a `None`
      default. */
  lemma GetNestedIsLenientLookup<A>(data: Value<A>, keys: seq<string>, separator: string)
    requires data.Dict?
    ensures NestedLookup(Keys(keys), data, separator, false, Null) == Ok(GetNested(data, keys))
  {
    if At(data, keys).Some? {
      NestedLookupFound(keys, data, separator, false, Null);
    } else {
      NestedLookupNotFound(keys, data, separator, false, Null);
      GetNestedMissing(data, keys);
    }
  }
}
